=== FILE: README.md ===
# Salmon frame rules in Dafny

A model of the frame-step rules of the "Salmon" arcade game. The game is built on an
entity-component-system store: entities are handles, and each component type (Motion,
SoftShell and Player tags, DeathTimer, Colour, Collision) lives in its own container.

The model covers two parts of the game.

- The physics step: Euler integration, the two overlap tests, the all-pairs broad phase
  and the per-vertex wall-bounce rule.
- The world rules: the backward swap-remove sweep of off-screen entities, the death-timer
  countdown with its screen darkening, `restart_game`, the game rules of
  `handle_collisions`, and the `on_key` command handling.

Floats are modelled as `real`. The C++ float-to-`int` conversion in the wall rule is
written out as truncation toward zero (`Physics.Trunc`).

Files and modules:

- `ecs.dfy` (`Ecs`): a component container as a sequence of `(entity, component)` slots.
  Removal overwrites the slot with the last one and pops the back, as the source's comment
  at `src/world_system.cpp:148-149` describes. The container implementation itself is not
  part of this model.
- `geometry.dfy` (`Geometry`): vectors, the `Motion` record and colours.
- `components.dfy` (`Components`): the registry, its validity invariant, and
  `remove_all_components_of`.
- `physics.dfy` (`Physics`): `PhysicsSystem::step` and its helpers.
- `world.dfy` (`Game`): the world state, the sweep, the death timers, the restart and the
  frame.
- `contacts.dfy` (`Contacts`): `handle_collisions`.
- `keys.dfy` (`Keys`): `on_key`.

Two behaviours of the code that the model keeps as written:

- In `handle_collisions`, the guard of the "eat" branch repeats the guard of the "death"
  branch (`registry.softShells.has(entity_other)` at both `src/world_system.cpp:337` and
  `:353`). The eat branch is modelled as written. `Contacts.ApplyNeverEats` proves that it
  is never taken: handling collisions never scores and never removes an entity. The comment
  at `src/world_system.cpp:336` labels the first branch as the player–hard-shell case. Hard
  shells (turtles) are not part of this model, so no corrected version is modelled.
- Past the left window edge, the wall rule negates the horizontal speed whatever its sign
  (`src/physics_system.cpp:67`). Two vertices past that edge therefore cancel out
  (`Physics.LeftEdgeFlipsTwice`). This is modelled as written.

## Model

| member | source | states |
|---|---|---|
| Physics.BoundingBox | src/physics_system.cpp:6-10 | both box components are non-negative, and each is the scale component or its negation |
| Physics.MirroringKeepsCollisions | src/physics_system.cpp:8-9 | negating the scale (facing the other way) changes neither the box nor any collision result |
| Physics.DistanceSquaredFacts | src/physics_system.cpp:17-18 | the squared centre distance is symmetric, non-negative, and zero for coincident centres |
| Physics.RadiusSquaredFacts | src/physics_system.cpp:19-22 | the squared bounding radius is non-negative, and zero for an entity with zero scale |
| Physics.CollidesSymmetric | src/physics_system.cpp:15-27 | `collides(a, b)` holds exactly when `collides(b, a)` does |
| Physics.CollidesIffCentreInside | src/physics_system.cpp:12-27 | `collides` holds exactly when either centre lies strictly inside the other's bounding circle, as the function's comment describes |
| Physics.ZeroScaleNeverCollides | src/physics_system.cpp:17-26 | the test is strict: two entities with zero scale never collide, even when their centres coincide |
| Physics.CirclesIntersectSymmetric | src/physics_system.cpp:29-35 | `circlesIntersect` is symmetric |
| Physics.CirclesIntersectIsDistanceBelowReach | src/physics_system.cpp:29-35 | for the Euclidean centre distance `dist`, the squared-distance test holds exactly when `dist < 50` |
| Physics.Advance | src/physics_system.cpp:83-84 | one Euler step moves the position by exactly velocity times the step length, and keeps velocity, scale and angle |
| Physics.AdvanceCompose | src/physics_system.cpp:83-84 | steps of `s` then `t` seconds equal one step of `s + t`, and a step of 0 seconds changes nothing |
| Physics.Integrate | src/physics_system.cpp:78-85 | integration moves every position by its velocity times `elapsed_ms / 1000`, and keeps the container's length, its entity order, and every velocity, scale and angle |
| Physics.IntegrateZero | src/physics_system.cpp:78-85 | a frame of 0 ms leaves every motion unchanged |
| Physics.IntegrateCompose | src/physics_system.cpp:78-85 | frames of `a` and `b` ms move every entity exactly as one frame of `a + b` ms |
| Physics.IntegrateUndo | src/physics_system.cpp:78-85 | a frame of `-a` ms undoes a frame of `a` ms |
| Physics.RowPairsMembers | src/physics_system.cpp:98-116 | the inner loop records `(i, k)` for exactly the columns `k` from `j` on whose test result is true; each event is built from slot `i` and slot `k` |
| Physics.PairsFromMembers | src/physics_system.cpp:94-118 | the outer loop from row `i` records exactly the pairs `(a, b)` with `a >= i`, `a != b` and a hit |
| Physics.HitSymmetric | src/physics_system.cpp:105-116 | the tag-selected overlap test (circles for two soft shells, bounding circles otherwise) is symmetric in the two slots |
| Physics.DetectCollisionsRecords | src/physics_system.cpp:94-118 | for distinct entities, slots `(i, j)` are recorded exactly when `i != j` and the tag-selected test holds |
| Physics.DetectCollisionsNoSelfPairs | src/physics_system.cpp:100-101 | no entity is ever recorded as colliding with itself |
| Physics.DetectCollisionsSymmetric | src/physics_system.cpp:94-118 | whenever `(e, o)` is recorded, `(o, e)` is recorded too |
| Physics.RowPairsNoDuplicates | src/physics_system.cpp:98-116 | one row of the broad phase records each event at most once |
| Physics.PairsFromNoDuplicates | src/physics_system.cpp:94-118 | the rows from `i` on record each event at most once, also across rows |
| Physics.DetectCollisionsOnce | src/physics_system.cpp:94-118 | each ordered pair of entities is recorded at most once per step |
| Physics.Trunc | src/physics_system.cpp:49-50 | the float-to-int conversion truncates toward zero: the result lies within one unit of the input, on the input's side of zero |
| Physics.TruncBelowZero | src/physics_system.cpp:49-51 | a vertex counts as above the top edge exactly when its y is at most -1, not merely below 0 |
| Physics.VertexBounceTop | src/physics_system.cpp:51-58 | above the top edge, a vertical speed that is zero or upward becomes downward, and a non-zero one is negated |
| Physics.VertexBounceBottom | src/physics_system.cpp:59-66 | below the bottom edge, a vertical speed that is zero or downward becomes upward |
| Physics.VertexBounceVerticalQuiet | src/physics_system.cpp:51-66 | when neither vertical rule fires, the vertical speed is unchanged |
| Physics.VertexBounceRight | src/physics_system.cpp:67-69 | past the right edge, the horizontal speed ends up as minus its magnitude |
| Physics.LeftEdgeFlipsTwice | src/physics_system.cpp:67-69 | two vertices past the left edge (and inside the vertical band) give back the original velocity |
| Physics.MeshBounceMagnitudes | src/physics_system.cpp:45-70 | over all vertices, the magnitude of vx is kept; that of vy is kept, or becomes 100 when vy was 0 |
| Physics.MeshBounceInside | src/physics_system.cpp:45-70 | a mesh whose vertices all lie inside the window leaves the velocity unchanged |
| Physics.BounceEntity | src/physics_system.cpp:37-71 | the wall pass for one entity sets its velocity to the result of the vertex loop over its mesh; every other slot is unchanged; in every slot, positions, scales and angles are kept, the magnitude of vx is kept, and that of vy is kept or goes from 0 to 100 |
| Physics.BounceAll | src/physics_system.cpp:121-125 | the wall passes over the listed entities leave every other slot unchanged; in every slot they keep position, scale and angle, keep the magnitude of vx, and keep that of vy or take it from 0 to 100 |
| Physics.BounceAllTargets | src/physics_system.cpp:37-71 | over a store with one motion per entity, every entity listed exactly once in the wall pass ends with the velocity the vertex loop gives for its own mesh |
| Physics.PhysicsStep | src/physics_system.cpp:73-125 | the step appends exactly the broad-phase events of the integrated motions to the collision list; every position moves by its velocity times `elapsed_ms / 1000`; an entity that is neither a soft shell nor the first player keeps its velocity; in a store with one motion per entity, a soft shell or player listed once gets the velocity of the vertex loop over its mesh; every velocity keeps the magnitude of vx and keeps that of vy or takes it from 0 to 100; scale, angle, entity order and all other containers are kept |
| Components.RemoveAllComponentsOf | src/world_system.cpp:153 | in each container, stripping an entity removes one slot when the entity has a component there and changes nothing otherwise, and adds no slot |
| Components.RemoveAllComponentsOfHas | src/world_system.cpp:153 | stripping an entity removes exactly that entity from each tag, timer, colour and motion container, and keeps each free of duplicates |
| Components.RemoveAllComponentsOfValid | src/world_system.cpp:153 | stripping an entity keeps the store valid, and every container loses exactly that entity |
| Game.SwapRemoveTail | src/world_system.cpp:148-150 | swap-remove of slot `i` moves the last slot into the hole and keeps the multiset of the slots after `i` |
| Game.SweepDrop | src/world_system.cpp:150-154 | removing the off-screen slot `i` keeps the sweep invariant: the unvisited prefix is untouched, and the visited part holds exactly the original visible slots |
| Game.SweepKeep | src/world_system.cpp:150-155 | passing over the visible slot `i` keeps the sweep invariant |
| Game.SweepOffScreen | src/world_system.cpp:147-155 | the survivors are, as a multiset, exactly the original motions with `x + abs(scale.x) >= 0`, all of them on screen; the other containers lose exactly the off-screen entities; the store stays valid |
| Game.CountDown | src/world_system.cpp:208-224 | the timer loop keeps every timer's entity in its slot, and an early stop happens at a slot from `i` on |
| Game.CountDownStops | src/world_system.cpp:208-224 | the loop stops early exactly when some counter from `i` on drops below 0 after the frame |
| Game.CountDownExpired | src/world_system.cpp:208-224 | an early stop is at the first counter that drops below 0; the counters from `i` up to it are decreased by the frame length, the later ones and the earlier slots are untouched |
| Game.CountDownRunning | src/world_system.cpp:208-215 | when the loop runs to the end, every counter from `i` on is decreased by the frame length and is non-negative, and the tracked minimum is at most the start value and at most every counter |
| Game.CountDownMinimum | src/world_system.cpp:208-215 | the tracked minimum is the start value or one of the decremented counters |
| Game.TickDeathTimersExpired | src/world_system.cpp:217-223 | an expiring timer restarts the game: the screen is lit, speed is 1, there is one player and no death timer, and the store stays valid |
| Game.TickDeathTimersRunning | src/world_system.cpp:208-226 | without expiry every counter drops by the frame length and stays non-negative; darken is `1 - m/3000` for `m` the smaller of 3000 and the smallest counter, so it lies in [0, 1]; nothing else changes |
| Game.RemoveMotionBearing | src/world_system.cpp:244-245 | the clearing loop leaves no motion |
| Game.RemoveMotionBearingValid | src/world_system.cpp:244-245 | the clearing loop keeps the store valid, and a colour survives exactly when its entity had no motion |
| Ecs.EmplaceRemove | src/world_system.cpp:251-253 | emplacing a component for a new entity and removing it again gives back the container, which is why the soft-shell tag that `createSalmon` adds leaves no trace |
| Game.CreatePlayer | src/world_system.cpp:250-257 | the new entity gets a motion at the spawn position, the player tag and the colour (0, 255, 0); each of these containers grows by exactly that entity; a store in which the entity was no soft shell keeps its soft shells and death timers as they were |
| Game.PaintPlayer | src/world_system.cpp:254-257 | after the insert and the overwrite of r, g and b, the entity's colour is (0, 255, 0) |
| Game.PaintPlayerKeeps | src/world_system.cpp:254-257 | painting a fresh entity keeps the colours free of duplicates and adds exactly that entity |
| Game.CreatePlayerValid | src/world_system.cpp:251-257 | creating the player on a store without motions gives a valid store with that entity as the only player, no soft shell, no death timer, and the colour (0, 255, 0) |
| Game.Restart | src/world_system.cpp:234-257 | after a restart, speed is 1 and the only motion is the new player's, at (100, 200) |
| Game.RestartValid | src/world_system.cpp:240-257 | after a restart the store is valid, the new player is the only player, there are no soft shells and no death timers, and the player's colour is (0, 255, 0) |
| Game.Step | src/world_system.cpp:147-226 | the frame sweeps off-screen entities; then it either restarts (screen lit, speed 1, one player) or leaves only on-screen motions, with darken in [0, 1] |
| Contacts.SalmonContact | src/world_system.cpp:284-330 | the salmon–salmon response changes only motions, and keeps their entities in place |
| Contacts.Apply | src/world_system.cpp:278-364 | handling one record never lengthens the collision list |
| Contacts.ApplyNeverEats | src/world_system.cpp:333-363 | handling one record never scores and never touches the collision list; it keeps every motion slot's entity, the speed and the player |
| Contacts.DeathOnContact | src/world_system.cpp:337-348 | a player touching a soft shell while not dying gets a 3000 ms death timer, angle 3.1415, velocity (0, 80) and, if it has a colour, colour (255, 0, 0) |
| Contacts.DeathOnContactFrame | src/world_system.cpp:337-348 | for a player that is not a soft shell itself, the death branch appends exactly one 3000 ms death timer, sets only the angle and velocity of the player's motion, leaves every other motion and colour slot, the tags, the collision list and the rest of the world unchanged |
| Contacts.ContactWhileDyingChangesNothing | src/world_system.cpp:337-339 | a contact of a dying player that is not a soft shell changes nothing |
| Contacts.ContactIdempotent | src/world_system.cpp:337-348 | handling the same record twice is the same as handling it once, when the entity is not a soft shell |
| Contacts.ApplyValid | src/world_system.cpp:284-363 | handling one record keeps the store valid |
| Contacts.HandleFrom | src/world_system.cpp:278-367 | the loop from record `i` on ends with an empty collision list |
| Contacts.HandleFromKeepsScore | src/world_system.cpp:278-365 | the loop keeps the score, and every motion slot keeps its entity |
| Contacts.HandleFromValid | src/world_system.cpp:278-367 | the loop keeps the store valid |
| Contacts.HandleCollisions | src/world_system.cpp:275-368 | after handling, the collision list is empty |
| Contacts.HandleCollisionsKeepsScore | src/world_system.cpp:275-368 | handling all collisions keeps the score, and removes no entity's motion |
| Keys.AdjustSpeed | src/world_system.cpp:400-408 | the speed after the speed keys and the clamp is never negative |
| Keys.Commands | src/world_system.cpp:392-452 | the debug, speed and movement commands leave the speed non-negative, and keep the score, darken and player |
| Keys.OnKey | src/world_system.cpp:376-453 | after any key event the speed is non-negative, and score and darken are unchanged |
| Keys.SpeedKeys | src/world_system.cpp:400-408 | releasing shift+',' gives `max(0, speed - 0.1)`; releasing shift+'.' gives `max(0, speed + 0.1)`; any other event gives `max(0, speed)` |
| Keys.SpeedKeysUndo | src/world_system.cpp:400-408 | from a speed of at least 0.1, '<' then '>' restores the speed |
| Keys.RestartKey | src/world_system.cpp:384-389 | releasing R restarts: speed 1, a single player, no death timer, valid store |
| Keys.RestartKeyRestarts | src/world_system.cpp:384-389 | the rest of the key handling adds nothing to a restart: releasing R gives exactly the restarted world |
| Keys.CommandsIgnoreOtherKeys | src/world_system.cpp:392-452 | a key that is not D, ',' '.' or an arrow changes nothing in a world with a non-negative speed |
| Keys.DebugKey | src/world_system.cpp:392-397 | D turns debug mode off on release and on for press and repeat |
| Keys.ArrowIgnoredWhileDying | src/world_system.cpp:411 | while any death timer exists, an arrow key changes nothing |
| Keys.ArrowMovesPlayer | src/world_system.cpp:411-451 | with nobody dying: Left, Up and Down set their axis to 0 on release and to -100, -100 and +100 otherwise; Right sets 0 on release, 100 on press, and keeps vx on repeat; the other axis, the rest of the player's motion and every other motion are unchanged |
| Keys.ReleaseStops | src/world_system.cpp:411-451 | releasing an arrow stops the player along that arrow's axis |
| Keys.CommandsValid | src/world_system.cpp:392-452 | the commands keep the store valid |
| Keys.OnKeyValid | src/world_system.cpp:376-453 | a key event keeps the store valid |

## Left out

- Window, input and audio: GLFW window creation, callbacks and title updates, and SDL audio
  loading and playback (`src/world_system.cpp:29-127`, `:133-137`, `:342`, `:357`).
  These are library I/O. Key codes arrive as plain parameters.
- Rendering and debug lines: `src/physics_system.cpp:137-155` and the removal of debug
  components at `src/world_system.cpp:140-142`. This is graphics glue.
- The mesh `Transform` matrix math (`src/physics_system.cpp:40-50`). The world coordinates
  of the vertices are inputs (`meshes` in `Physics.PhysicsStep`), taken before the `int`
  conversion. The source adds the entity's position again after the transform
  (`src/physics_system.cpp:49-50`), which looks like a bug because the transform already
  translates by it. Since the transform is not modelled, neither is that addition.
- Contacts.SalmonContact: the salmon–salmon response (`src/world_system.cpp:284-330`) is
  an abstract `Bounce` function of the two old motions. Its sqrt/pow numerics, its
  division by a possibly zero distance and its velocity doubling have no stated contract.
- Salmon spawning (`src/world_system.cpp:157-176`): the `next_salmon_spawn` timer, which
  runs down by `elapsed_ms * current_speed * 3`; the `MAX_SALMON` cap on soft shells; and
  `createSalmon` just off the right edge, at a random height and with velocity (-200, -200)
  or (-200, 200), chosen by a random draw. Random draws are not modelled. The turtle
  block at `:178-191` is commented out apart from its timer, and the fish block at
  `:193-197` is only a placeholder. `Game.Step` goes straight from the sweep to the death
  timers, so no entity is spawned in the modelled frame.
- Entity creation internals (`createSalmon`), which are not part of this model. The
  motion it creates is the parameter `spawned`, with its position set to (100, 200). The
  soft-shell tag that `restart_game` removes right away is assumed to be added by it.
- The DeathTimer default of 3000 ms comes from the component declarations, which are not
  part of this model. `Components.DeathTimerStartMs` states it.
- Unchecked component reads: a `get` of a missing component has no defined behaviour in
  the source. The model treats it as leaving the container unchanged. This covers the
  player's motion in `on_key`, the player's motion and colour in the death branch, the
  two motions read in the salmon–salmon branch (`src/world_system.cpp:285-286`), which
  the model leaves alone when either is missing, the motions in the wall pass, and
  `players.entities[0]` with no player, which the model skips. A wall target without a
  mesh (`src/physics_system.cpp:38`) has no vertices in the model (`Physics.VerticesOf`),
  so its velocity is left as it is.
- IEEE float rounding, including the 0.1f speed steps. Reals are exact.
- The screen-state container and its assert (`src/world_system.cpp:205-206`). The darken
  factor is a field of the world state.
- `on_mouse_move` and `is_over`, which are not part of the modelled core.
- The registry containers `hardShells`, `debugComponents` and `renderRequests`, which the
  modelled rules never read or write (`remove_all_components_of` empties them too). Two
  more containers are replaced rather than modelled: `meshPtrs`, read by the wall pass at
  `src/physics_system.cpp:38`, becomes the `meshes` vertex-list parameter of
  `Physics.PhysicsStep`; `screenStates`, read and written at `src/world_system.cpp:206`,
  `:220` and `:226`, becomes the `darken` field of the world state.
- Logging: `list_all_components` and the `printf` calls (`src/world_system.cpp:236-248`,
  `:402`, `:406`). They only print.
- Game.CountDown: its own contract states only the kept entities and where an early stop
  lies. When it stops, what it does to the counters and the value of the tracked minimum
  are stated by `Game.CountDownStops`, `Game.CountDownExpired`, `Game.CountDownRunning`
  and `Game.CountDownMinimum`.

=== FILE: components.dfy ===
/**
 The registry of the game: one container per component type, keyed by entity,
 and `remove_all_components_of`, which strips an entity from every container.
 */
module Components {
  import opened Ecs
  import opened Geometry

  /** A collision event: the entity the slot belongs to collided with `other`. */
  datatype Collision = Collision(other: Entity)

  /** A running death countdown, in milliseconds. */
  datatype DeathTimer = DeathTimer(counterMs: real)

  /** A freshly emplaced death timer starts at 3000 ms. */
  const DeathTimerStartMs: real := 3000.0

  datatype Registry = Registry(
    motions: Container<Motion>,
    softShells: Container<Tag>,
    players: Container<Tag>,
    deathTimers: Container<DeathTimer>,
    colors: Container<Color>,
    collisions: Container<Collision>,
    /** The next entity handle to be created. */
    nextEntity: Entity)

  /**
   The store's invariants: one component per entity in each container, every
   tagged or dying entity has a motion, and no handle is at or above `nextEntity`.
   */
  ghost predicate Valid(reg: Registry) {
    && Distinct(reg.motions)
    && Distinct(reg.softShells)
    && Distinct(reg.players)
    && Distinct(reg.deathTimers)
    && Distinct(reg.colors)
    && (forall e: Entity | Has(reg.softShells, e) :: Has(reg.motions, e))
    && (forall e: Entity | Has(reg.players, e) :: Has(reg.motions, e))
    && (forall e: Entity | Has(reg.deathTimers, e) :: Has(reg.motions, e))
    && (forall e: Entity | Has(reg.motions, e) :: e < reg.nextEntity)
    && (forall e: Entity | Has(reg.colors, e) :: e < reg.nextEntity)
  }

  /**
   `r` is `c` after removing the component of `e`: one slot shorter when `e`
   had one, unchanged otherwise, and with no slot that `c` did not hold.
   */
  predicate Stripped<T(==)>(r: Container<T>, c: Container<T>, e: Entity) {
    && (Has(c, e) ==> |r| == |c| - 1)
    && (!Has(c, e) ==> r == c)
    && (forall s | s in r :: s in c)
  }

  /** ECSRegistry::remove_all_components_of. */
  function RemoveAllComponentsOf(reg: Registry, e: Entity): (r: Registry)
    ensures Stripped(r.motions, reg.motions, e)
    ensures Stripped(r.softShells, reg.softShells, e)
    ensures Stripped(r.players, reg.players, e)
    ensures Stripped(r.deathTimers, reg.deathTimers, e)
    ensures Stripped(r.colors, reg.colors, e)
    ensures Stripped(r.collisions, reg.collisions, e)
    ensures r.nextEntity == reg.nextEntity
  {
    reg.(
      motions := Remove(reg.motions, e),
      softShells := Remove(reg.softShells, e),
      players := Remove(reg.players, e),
      deathTimers := Remove(reg.deathTimers, e),
      colors := Remove(reg.colors, e),
      collisions := Remove(reg.collisions, e))
  }

  /** Stripping an entity makes every container lose exactly that entity, and keeps each distinct. */
  lemma RemoveAllComponentsOfHas(reg: Registry, e: Entity)
    requires Valid(reg)
    ensures var r := RemoveAllComponentsOf(reg, e);
      && Distinct(r.motions) && Distinct(r.softShells) && Distinct(r.players)
      && Distinct(r.deathTimers) && Distinct(r.colors)
    ensures forall x ::
      var r := RemoveAllComponentsOf(reg, e);
      && (Has(r.motions, x) <==> Has(reg.motions, x) && x != e)
      && (Has(r.softShells, x) <==> Has(reg.softShells, x) && x != e)
      && (Has(r.players, x) <==> Has(reg.players, x) && x != e)
      && (Has(r.deathTimers, x) <==> Has(reg.deathTimers, x) && x != e)
      && (Has(r.colors, x) <==> Has(reg.colors, x) && x != e)
  {
    forall x
      ensures Has(Remove(reg.motions, e), x) <==> Has(reg.motions, x) && x != e
      ensures Has(Remove(reg.softShells, e), x) <==> Has(reg.softShells, x) && x != e
      ensures Has(Remove(reg.players, e), x) <==> Has(reg.players, x) && x != e
      ensures Has(Remove(reg.deathTimers, e), x) <==> Has(reg.deathTimers, x) && x != e
      ensures Has(Remove(reg.colors, e), x) <==> Has(reg.colors, x) && x != e
    {
      RemoveHas(reg.motions, e, x);
      RemoveHas(reg.softShells, e, x);
      RemoveHas(reg.players, e, x);
      RemoveHas(reg.deathTimers, e, x);
      RemoveHas(reg.colors, e, x);
    }
    RemoveHas(reg.motions, e, e);
    RemoveHas(reg.softShells, e, e);
    RemoveHas(reg.players, e, e);
    RemoveHas(reg.deathTimers, e, e);
    RemoveHas(reg.colors, e, e);
  }

  /** Stripping an entity keeps the store valid and loses that entity, and only it, everywhere. */
  lemma RemoveAllComponentsOfValid(reg: Registry, e: Entity)
    requires Valid(reg)
    ensures Valid(RemoveAllComponentsOf(reg, e))
    ensures forall x ::
      var r := RemoveAllComponentsOf(reg, e);
      && (Has(r.motions, x) <==> Has(reg.motions, x) && x != e)
      && (Has(r.softShells, x) <==> Has(reg.softShells, x) && x != e)
      && (Has(r.players, x) <==> Has(reg.players, x) && x != e)
      && (Has(r.deathTimers, x) <==> Has(reg.deathTimers, x) && x != e)
      && (Has(r.colors, x) <==> Has(reg.colors, x) && x != e)
  {
    RemoveAllComponentsOfHas(reg, e);
  }
}

=== FILE: contacts.dfy ===
/**
 The game rules of WorldSystem::handle_collisions: the collision list left by
 the physics step is walked once, contacts between two soft shells get the
 salmon–salmon response, a player touching a soft shell starts dying, and
 the list is cleared.
 */
module Contacts {
  import opened Ecs
  import opened Geometry
  import opened Components
  import opened Game

  /** The heading of a dying player: upside down. */
  const DeathAngle: real := 3.1415

  /** A dying player sinks. */
  const SinkingVelocity: Vec2 := Vec2(0.0, 80.0)

  const DeadColor: Color := Color(255.0, 0.0, 0.0)

  /**
   The salmon–salmon response: the two new motions, computed from the two
   old ones. Its float formula is not modelled.
   */
  type Bounce = (Motion, Motion) -> (Motion, Motion)

  /**
   Overwrite the component of `e` when it has one. The source reads a
   missing component through an unchecked `get`; that case is modelled as
   leaving the container as it is.
   */
  function SetIfPresent<T>(c: Container<T>, e: Entity, v: T): (r: Container<T>)
    ensures SameEntities(r, c)
    ensures Has(c, e) ==> Has(r, e) && Get(r, e) == v
    ensures !Has(c, e) ==> r == c
    ensures forall k | 0 <= k < |c| && c[k].entity != e :: r[k] == c[k]
  {
    if Has(c, e) then Update(c, e, v) else c
  }

  /** Containers with the same entities in the same order agree on validity. */
  lemma SameMotionsValid(reg: Registry, ms: Container<Motion>)
    requires Valid(reg) && SameEntities(ms, reg.motions)
    ensures Valid(reg.(motions := ms))
  {
    SameEntitiesHas(ms, reg.motions);
  }

  lemma SameColorsValid(reg: Registry, cs: Container<Color>)
    requires Valid(reg) && SameEntities(cs, reg.colors)
    ensures Valid(reg.(colors := cs))
  {
    SameEntitiesHas(cs, reg.colors);
  }

  /** The salmon–salmon branch: both soft shells take the response's motions. */
  function SalmonContact(reg: Registry, e: Entity, o: Entity, bounce: Bounce): (r: Registry)
    ensures r == reg.(motions := r.motions)
    ensures SameEntities(r.motions, reg.motions)
  {
    if Has(reg.softShells, e) && Has(reg.softShells, o) && Has(reg.motions, e) && Has(reg.motions, o) then
      var moved := bounce(Get(reg.motions, e), Get(reg.motions, o));
      var ms := SetIfPresent(reg.motions, e, moved.0);
      reg.(motions := SetIfPresent(ms, o, moved.1))
    else reg
  }

  /** The player starts dying: a fresh death timer, the sinking pose and the dead colour. */
  function Die(reg: Registry, e: Entity): (r: Registry)
  {
    reg.(
      deathTimers := Emplace(reg.deathTimers, e, DeathTimer(DeathTimerStartMs)),
      motions := if Has(reg.motions, e)
        then SetIfPresent(reg.motions, e, Get(reg.motions, e).(angle := DeathAngle, velocity := SinkingVelocity))
        else reg.motions,
      colors := SetIfPresent(reg.colors, e, DeadColor))
  }

  /**
   One collision record. The second player branch repeats the guard of the
   first, so it is taken never; it is modelled as written.
   */
  function Apply(w: World, c: Slot<Collision>, bounce: Bounce): (r: World)
    ensures |r.reg.collisions| <= |w.reg.collisions|
  {
    var e := c.entity;
    var o := c.data.other;
    var reg := SalmonContact(w.reg, e, o, bounce);
    if !Has(reg.players, e) then w.(reg := reg)
    else if Has(reg.softShells, o) then
      if !Has(reg.deathTimers, e) then w.(reg := Die(reg, e)) else w.(reg := reg)
    else if Has(reg.softShells, o) then
      if !Has(reg.deathTimers, e) then w.(reg := RemoveAllComponentsOf(reg, o), points := w.points + 1)
      else w.(reg := reg)
    else w.(reg := reg)
  }

  /**
   The loop of handle_collisions from record `i` on, followed by the final
   clear. The list is read afresh at every step, as the source does.
   */
  function HandleFrom(w: World, i: nat, bounce: Bounce): (r: World)
    ensures r.reg.collisions == []
    ensures r.reg.nextEntity == w.reg.nextEntity
    decreases |w.reg.collisions| - i
  {
    if i >= |w.reg.collisions| then w.(reg := w.reg.(collisions := []))
    else HandleFrom(Apply(w, w.reg.collisions[i], bounce), i + 1, bounce)
  }

  /** WorldSystem::handle_collisions. */
  function HandleCollisions(w: World, bounce: Bounce): (r: World)
    ensures r.reg.collisions == []
  {
    HandleFrom(w, 0, bounce)
  }

  /**
   Handling one record never scores, never removes an entity and never
   touches the collision list: the eating branch cannot be reached.
   */
  lemma ApplyNeverEats(w: World, c: Slot<Collision>, bounce: Bounce)
    ensures var r := Apply(w, c, bounce);
      && r.points == w.points
      && r.reg.collisions == w.reg.collisions
      && SameEntities(r.reg.motions, w.reg.motions)
      && r.speed == w.speed && r.player == w.player
  {
  }

  /** The whole pass keeps the score and every entity's motion slot, in place. */
  lemma {:induction false} HandleFromKeepsScore(w: World, i: nat, bounce: Bounce)
    ensures var r := HandleFrom(w, i, bounce);
      && r.points == w.points
      && SameEntities(r.reg.motions, w.reg.motions)
    decreases |w.reg.collisions| - i
  {
    if i < |w.reg.collisions| {
      var next := Apply(w, w.reg.collisions[i], bounce);
      ApplyNeverEats(w, w.reg.collisions[i], bounce);
      HandleFromKeepsScore(next, i + 1, bounce);
    }
  }

  lemma HandleCollisionsKeepsScore(w: World, bounce: Bounce)
    ensures HandleCollisions(w, bounce).points == w.points
    ensures SameEntities(HandleCollisions(w, bounce).reg.motions, w.reg.motions)
  {
    HandleFromKeepsScore(w, 0, bounce);
  }

  /** Handling one record keeps the store valid. */
  lemma ApplyValid(w: World, c: Slot<Collision>, bounce: Bounce)
    requires Valid(w.reg)
    ensures Valid(Apply(w, c, bounce).reg)
  {
    var e := c.entity;
    var o := c.data.other;
    var reg := SalmonContact(w.reg, e, o, bounce);
    SameMotionsValid(w.reg, reg.motions);
    SameEntitiesHas(reg.motions, w.reg.motions);
    if Has(reg.players, e) && Has(reg.softShells, o) && !Has(reg.deathTimers, e) {
      var d := Die(reg, e);
      var dying := reg.(deathTimers := d.deathTimers);
      assert Valid(dying);
      SameMotionsValid(dying, d.motions);
      SameColorsValid(dying.(motions := d.motions), d.colors);
    }
  }

  lemma {:induction false} HandleFromValid(w: World, i: nat, bounce: Bounce)
    requires Valid(w.reg)
    ensures Valid(HandleFrom(w, i, bounce).reg)
    decreases |w.reg.collisions| - i
  {
    if i < |w.reg.collisions| {
      ApplyValid(w, w.reg.collisions[i], bounce);
      HandleFromValid(Apply(w, w.reg.collisions[i], bounce), i + 1, bounce);
    }
  }

  /**
   A player that is not dying and touches a soft shell gets a death timer
   of the full length, the sinking pose and, if coloured, the dead colour.
   */
  lemma DeathOnContact(w: World, c: Slot<Collision>, bounce: Bounce)
    requires Valid(w.reg)
    requires Has(w.reg.players, c.entity) && Has(w.reg.softShells, c.data.other)
    requires !Has(w.reg.deathTimers, c.entity)
    ensures var r := Apply(w, c, bounce).reg;
      && Has(r.deathTimers, c.entity) && Get(r.deathTimers, c.entity) == DeathTimer(DeathTimerStartMs)
      && Has(r.motions, c.entity)
      && Get(r.motions, c.entity).angle == DeathAngle
      && Get(r.motions, c.entity).velocity == SinkingVelocity
      && (Has(w.reg.colors, c.entity) ==> Get(r.colors, c.entity) == DeadColor)
  {
    var reg := SalmonContact(w.reg, c.entity, c.data.other, bounce);
    SameEntitiesHas(reg.motions, w.reg.motions);
  }

  /**
   The death branch changes nothing else: for a player that is not a soft
   shell itself, the only new death timer is appended, the player's motion
   keeps its position and scale, every other motion and colour slot is
   untouched, and the tags, the collision list and the rest of the world are kept.
   */
  lemma DeathOnContactFrame(w: World, c: Slot<Collision>, bounce: Bounce)
    requires Valid(w.reg)
    requires Has(w.reg.players, c.entity) && !Has(w.reg.softShells, c.entity) && Has(w.reg.softShells, c.data.other)
    requires !Has(w.reg.deathTimers, c.entity)
    ensures var r := Apply(w, c, bounce);
      && r == w.(reg := r.reg)
      && r.reg.deathTimers == w.reg.deathTimers + [Slot(c.entity, DeathTimer(DeathTimerStartMs))]
      && Has(r.reg.motions, c.entity)
      && Get(r.reg.motions, c.entity) == Get(w.reg.motions, c.entity).(angle := DeathAngle, velocity := SinkingVelocity)
      && (forall k | 0 <= k < |w.reg.motions| && w.reg.motions[k].entity != c.entity :: r.reg.motions[k] == w.reg.motions[k])
      && (forall k | 0 <= k < |w.reg.colors| && w.reg.colors[k].entity != c.entity :: r.reg.colors[k] == w.reg.colors[k])
      && r.reg.softShells == w.reg.softShells && r.reg.players == w.reg.players
      && r.reg.collisions == w.reg.collisions && r.reg.nextEntity == w.reg.nextEntity
  {
  }

  /**
   A player already dying is left as it is by a contact with a soft shell
   (when it is not a soft shell itself), so a repeated contact changes nothing.
   */
  lemma ContactWhileDyingChangesNothing(w: World, c: Slot<Collision>, bounce: Bounce)
    requires Has(w.reg.deathTimers, c.entity) && !Has(w.reg.softShells, c.entity)
    ensures Apply(w, c, bounce) == w
  {
  }

  lemma ContactIdempotent(w: World, c: Slot<Collision>, bounce: Bounce)
    requires Valid(w.reg) && !Has(w.reg.softShells, c.entity)
    ensures Apply(Apply(w, c, bounce), c, bounce) == Apply(w, c, bounce)
  {
    var r := Apply(w, c, bounce);
    if Has(w.reg.players, c.entity) && Has(w.reg.softShells, c.data.other) && !Has(w.reg.deathTimers, c.entity) {
      assert Has(r.reg.deathTimers, c.entity);
      assert !Has(r.reg.softShells, c.entity);
      ContactWhileDyingChangesNothing(r, c, bounce);
    }
  }
}

=== FILE: ecs.dfy ===
/**
 The entity-component store. Every component type lives in a flat container
 of (entity, component) slots; removal overwrites the removed slot with the
 last one and pops the back, so the order of the survivors changes.
 */
module Ecs {

  /** Entities are opaque handles. */
  type Entity = nat

  datatype Slot<T> = Slot(entity: Entity, data: T)

  /** A component container: the parallel `entities`/`components` arrays as one sequence. */
  type Container<T> = seq<Slot<T>>

  /** The payload of a tag container (players, soft shells). */
  datatype Tag = Tag

  predicate Has<T>(c: Container<T>, e: Entity) {
    exists i | 0 <= i < |c| :: c[i].entity == e
  }

  /** At most one component per entity, the store's own invariant. */
  predicate Distinct<T>(c: Container<T>) {
    forall i, j | 0 <= i < j < |c| :: c[i].entity != c[j].entity
  }

  /** The position of the first slot of `e`. */
  function IndexOf<T>(c: Container<T>, e: Entity): (i: nat)
    requires Has(c, e)
    ensures i < |c| && c[i].entity == e
    ensures forall j | 0 <= j < i :: c[j].entity != e
  {
    if c[0].entity == e then 0
    else
      assert Has(c[1..], e) by {
        var k :| 0 <= k < |c| && c[k].entity == e;
        assert c[1..][k - 1].entity == e;
      }
      1 + IndexOf(c[1..], e)
  }

  lemma IndexOfDistinct<T>(c: Container<T>, i: nat)
    requires Distinct(c) && i < |c|
    ensures Has(c, c[i].entity) && IndexOf(c, c[i].entity) == i
  {
  }

  function Get<T>(c: Container<T>, e: Entity): (v: T)
    requires Has(c, e)
  {
    c[IndexOf(c, e)].data
  }

  /** Overwrite slot `i` with the last slot and pop the back. */
  function SwapRemoveAt<T>(c: Container<T>, i: nat): (r: Container<T>)
    requires i < |c|
    ensures |r| == |c| - 1
    ensures r[..i] == c[..i]
    ensures i < |r| ==> r[i] == c[|c| - 1] && r[i + 1..] == c[i + 1..|c| - 1]
    ensures multiset(r) == multiset(c) - multiset{c[i]}
  {
    var r := c[i := c[|c| - 1]][..|c| - 1];
    if i == |c| - 1 then
      assert c == r + [c[i]];
      r
    else
      assert c == c[..i] + [c[i]] + c[i + 1..|c| - 1] + [c[|c| - 1]];
      assert r == c[..i] + [c[|c| - 1]] + c[i + 1..|c| - 1];
      r
  }

  /** Slots kept by a swap-removal, by position: the removed slot is the only one lost. */
  lemma SwapRemoveAtHas<T>(c: Container<T>, i: nat, x: Entity)
    requires Distinct(c) && i < |c|
    ensures Distinct(SwapRemoveAt(c, i))
    ensures Has(SwapRemoveAt(c, i), x) <==> Has(c, x) && x != c[i].entity
  {
    var r := SwapRemoveAt(c, i);
    var n := |c|;
    // position k of r holds the slot at Orig(k) of c
    forall k | 0 <= k < |r|
      ensures r[k] == c[if k == i then n - 1 else k]
    {
      if k < i {
        assert r[k] == r[..i][k];
      } else if k > i {
        assert r[k] == r[i + 1..][k - i - 1];
      }
    }
    if Has(r, x) {
      var k :| 0 <= k < |r| && r[k].entity == x;
    }
    if Has(c, x) && x != c[i].entity {
      var k :| 0 <= k < n && c[k].entity == x;
      if k == n - 1 {
        assert r[i].entity == x;
      } else {
        assert r[k].entity == x;
      }
    }
  }

  /** ComponentContainer::remove: a no-op for an entity without a component. */
  function Remove<T>(c: Container<T>, e: Entity): (r: Container<T>)
    ensures Has(c, e) ==> |r| == |c| - 1
    ensures !Has(c, e) ==> r == c
    ensures |r| <= |c|
    ensures forall s | s in r :: s in c
  {
    if Has(c, e) then
      var r := SwapRemoveAt(c, IndexOf(c, e));
      assert forall s | s in r :: s in multiset(r);
      r
    else c
  }

  lemma RemoveHas<T>(c: Container<T>, e: Entity, x: Entity)
    requires Distinct(c)
    ensures Distinct(Remove(c, e))
    ensures Has(Remove(c, e), x) <==> Has(c, x) && x != e
  {
    if Has(c, e) {
      SwapRemoveAtHas(c, IndexOf(c, e), x);
    }
  }

  /** ComponentContainer::emplace / insert: append a slot. */
  function Emplace<T>(c: Container<T>, e: Entity, v: T): (r: Container<T>)
    ensures Has(r, e)
    ensures !Has(c, e) ==> Get(r, e) == v
    ensures forall x :: Has(r, x) <==> Has(c, x) || x == e
    ensures !Has(c, e) && Distinct(c) ==> Distinct(r)
  {
    var r := c + [Slot(e, v)];
    assert r[|c|].entity == e;
    assert forall x | Has(c, x) :: Has(r, x) by {
      forall x | Has(c, x) ensures Has(r, x) {
        var k :| 0 <= k < |c| && c[k].entity == x;
        assert r[k].entity == x;
      }
    }
    r
  }

  /** Emplacing a component for a new entity and removing it again gives back the container. */
  lemma EmplaceRemove<T>(c: Container<T>, e: Entity, v: T)
    requires !Has(c, e)
    ensures Remove(Emplace(c, e, v), e) == c
  {
    var d := Emplace(c, e, v);
    assert d == c + [Slot(e, v)];
    assert forall j | 0 <= j < |c| :: d[j] == c[j];
    var i := IndexOf(d, e);
    assert i == |c|;
    assert d[..i] == c;
  }

  /** A one-slot container holding `e` is the slot of `e`. */
  lemma SingletonOf<T>(c: Container<T>, e: Entity)
    requires |c| == 1 && Has(c, e)
    ensures c == [Slot(e, Get(c, e))]
  {
    assert IndexOf(c, e) == 0;
  }

  /** Overwrite the component of `e` in place (`container.get(e) = v`). */
  function Update<T>(c: Container<T>, e: Entity, v: T): (r: Container<T>)
    requires Has(c, e)
    ensures |r| == |c|
    ensures forall k | 0 <= k < |c| :: r[k].entity == c[k].entity
    ensures Has(r, e) && Get(r, e) == v
    ensures forall k | 0 <= k < |c| && c[k].entity != e :: r[k] == c[k]
    ensures r[IndexOf(c, e)].data == v
    ensures forall k | 0 <= k < |c| && k != IndexOf(c, e) :: r[k] == c[k]
  {
    var i := IndexOf(c, e);
    var r := c[i := Slot(e, v)];
    assert r[i].entity == e;
    assert IndexOf(r, e) == i;
    r
  }

  lemma UpdateKeeps<T>(c: Container<T>, e: Entity, v: T, x: Entity)
    requires Has(c, e)
    ensures Has(Update(c, e, v), x) <==> Has(c, x)
    ensures Distinct(c) ==> Distinct(Update(c, e, v))
    ensures x != e && Has(c, x) ==> Get(Update(c, e, v), x) == Get(c, x)
  {
    var r := Update(c, e, v);
    if Has(c, x) {
      var k :| 0 <= k < |c| && c[k].entity == x;
      assert r[k].entity == x;
    }
    if Has(r, x) {
      var k :| 0 <= k < |r| && r[k].entity == x;
      assert c[k].entity == x;
    }
    if x != e && Has(c, x) {
      var j := IndexOf(c, x);
      assert r[j] == c[j];
      assert r[j].entity == x;
      assert IndexOf(r, x) == j;
    }
  }

  /** Keep only the slots satisfying `p`, in order. */
  function Filter<T>(s: seq<T>, p: T -> bool): (r: seq<T>)
    ensures |r| <= |s|
    ensures forall x | x in r :: x in s && p(x)
  {
    if s == [] then [] else (if p(s[0]) then [s[0]] else []) + Filter(s[1..], p)
  }

  lemma FilterHead<T>(s: seq<T>, i: nat, p: T -> bool)
    requires i < |s|
    ensures Filter(s[i..], p) == (if p(s[i]) then [s[i]] else []) + Filter(s[i + 1..], p)
  {
    assert s[i..][1..] == s[i + 1..];
  }

  lemma FilterMembers<T>(s: seq<T>, p: T -> bool, x: T)
    ensures x in Filter(s, p) <==> x in s && p(x)
  {
    if s != [] {
      FilterMembers(s[1..], p, x);
      assert s == [s[0]] + s[1..];
    }
  }
}

=== FILE: geometry.dfy ===
/**
 Plain 2D values of the game: vectors, the Motion component and colours.
 Floats are modelled as reals; rounding is not modelled.
 */
module Geometry {

  datatype Vec2 = Vec2(x: real, y: real) {
    function Plus(o: Vec2): Vec2 { Vec2(x + o.x, y + o.y) }
    function Minus(o: Vec2): Vec2 { Vec2(x - o.x, y - o.y) }
    function Times(k: real): Vec2 { Vec2(x * k, y * k) }
    function Dot(o: Vec2): real { x * o.x + y * o.y }
  }

  /** The Motion component: where an entity is, how fast it goes, its size and heading. */
  datatype Motion = Motion(position: Vec2, velocity: Vec2, scale: Vec2, angle: real)

  /** The Colour component (RGB). */
  datatype Color = Color(r: real, g: real, b: real)

  function Abs(r: real): (a: real)
    ensures a >= 0.0 && (a == r || a == -r)
  {
    if r < 0.0 then -r else r
  }

  function Max(a: real, b: real): (m: real)
    ensures m >= a && m >= b && (m == a || m == b)
  {
    if a < b then b else a
  }
}

=== FILE: keys.dfy ===
/**
 WorldSystem::on_key: restart, the debug toggle, the speed keys and the
 arrow-key velocity commands. Key, action and modifier codes are GLFW's.
 */
module Keys {
  import opened Ecs
  import opened Geometry
  import opened Components
  import opened Game

  const KeyComma: int := 44
  const KeyPeriod: int := 46
  const KeyD: int := 68
  const KeyR: int := 82
  const KeyRight: int := 262
  const KeyLeft: int := 263
  const KeyDown: int := 264
  const KeyUp: int := 265

  const Release: int := 0
  const Press: int := 1
  const Repeat: int := 2

  const ModShift: bv32 := 1

  /** The change of the speed multiplier per key release. */
  const SpeedStep: real := 0.1

  /** The player's swimming speed along one axis. */
  const SwimSpeed: real := 100.0

  predicate IsArrow(key: int) {
    key == KeyLeft || key == KeyRight || key == KeyUp || key == KeyDown
  }

  /**
   The player's new velocity for an arrow key. Right is the odd one out:
   a repeat leaves the horizontal speed alone, where the other arrows treat
   a repeat like a press.
   */
  function Command(v: Vec2, key: int, action: int): (u: Vec2)
  {
    if key == KeyLeft then (if action == Release then v.(x := 0.0) else v.(x := -SwimSpeed))
    else if key == KeyRight then
      (if action == Release then v.(x := 0.0) else if action == Press then v.(x := SwimSpeed) else v)
    else if key == KeyUp then (if action == Release then v.(y := 0.0) else v.(y := -SwimSpeed))
    else if key == KeyDown then (if action == Release then v.(y := 0.0) else v.(y := SwimSpeed))
    else v
  }

  /**
   The movement part of on_key. The source reads the player's motion with an
   unchecked `get`; a player without a motion is modelled as ignoring the key.
   */
  function Steer(w: World, key: int, action: int): (r: World)
  {
    if IsArrow(key) && Has(w.reg.motions, w.player) then
      var m := Get(w.reg.motions, w.player);
      w.(reg := w.reg.(motions := Update(w.reg.motions, w.player, m.(velocity := Command(m.velocity, key, action)))))
    else w
  }

  /** The speed keys: '<' and '>' (shift with ',' or '.') on release, then the clamp at zero. */
  function AdjustSpeed(speed: real, key: int, action: int, mods: bv32): (s: real)
    ensures s >= 0.0
  {
    var shift := mods & ModShift != 0;
    var lowered := if action == Release && shift && key == KeyComma then speed - SpeedStep else speed;
    var raised := if action == Release && shift && key == KeyPeriod then lowered + SpeedStep else lowered;
    Max(0.0, raised)
  }

  /** The part of on_key after the restart key: debug toggle, speed keys, movement. */
  function Commands(w: World, key: int, action: int, mods: bv32): (r: World)
    ensures r.speed >= 0.0
    ensures r.points == w.points && r.darken == w.darken && r.player == w.player
  {
    var debug := if key == KeyD then w.(debugging := action != Release) else w;
    var paced := debug.(speed := AdjustSpeed(debug.speed, key, action, mods));
    if paced.reg.deathTimers == [] then Steer(paced, key, action) else paced
  }

  /** WorldSystem::on_key. `spawned` is the player created by a restart. */
  function OnKey(w: World, key: int, action: int, mods: bv32, spawned: Motion): (r: World)
    ensures r.speed >= 0.0
    ensures r.points == w.points && r.darken == w.darken
  {
    var restarted := if action == Release && key == KeyR then Restart(w, spawned) else w;
    Commands(restarted, key, action, mods)
  }

  /**
   Releasing shifted ',' lowers the speed by a step and shifted '.' raises
   it, both clamped at zero; any other key only clamps.
   */
  lemma SpeedKeys(w: World, key: int, action: int, mods: bv32, spawned: Motion)
    requires key != KeyR
    ensures var s := OnKey(w, key, action, mods, spawned).speed;
      && (action == Release && mods & ModShift != 0 && key == KeyComma ==> s == Max(0.0, w.speed - SpeedStep))
      && (action == Release && mods & ModShift != 0 && key == KeyPeriod ==> s == Max(0.0, w.speed + SpeedStep))
      && (!(action == Release && mods & ModShift != 0 && (key == KeyComma || key == KeyPeriod)) ==> s == Max(0.0, w.speed))
  {
  }

  /** From a speed of at least one step, slowing down and speeding up again restores the speed. */
  lemma SpeedKeysUndo(w: World, spawned: Motion)
    requires w.speed >= SpeedStep
    ensures OnKey(OnKey(w, KeyComma, Release, ModShift, spawned), KeyPeriod, Release, ModShift, spawned).speed == w.speed
  {
    SpeedKeys(w, KeyComma, Release, ModShift, spawned);
    SpeedKeys(OnKey(w, KeyComma, Release, ModShift, spawned), KeyPeriod, Release, ModShift, spawned);
  }

  /** Releasing R restarts the game: speed one and a fresh, single player. */
  lemma RestartKey(w: World, mods: bv32, spawned: Motion)
    requires Valid(w.reg)
    ensures var r := OnKey(w, KeyR, Release, mods, spawned);
      && r.speed == 1.0
      && r.reg.players == [Slot(r.player, Tag)]
      && r.reg.deathTimers == []
      && Valid(r.reg)
  {
    RestartKeyRestarts(w, mods, spawned);
    RestartValid(w, spawned);
  }

  /** Releasing R amounts to exactly a restart. */
  lemma RestartKeyRestarts(w: World, mods: bv32, spawned: Motion)
    ensures OnKey(w, KeyR, Release, mods, spawned) == Restart(w, spawned)
  {
    RIsNoCommand();
    OnKeyRestarts(w, mods, spawned);
    CommandsIgnoreOtherKeys(Restart(w, spawned), KeyR, Release, mods);
  }

  /** R is neither the debug key, a speed key nor an arrow. */
  lemma RIsNoCommand()
    ensures KeyR != KeyD && KeyR != KeyComma && KeyR != KeyPeriod && !IsArrow(KeyR)
  {
  }

  /** Releasing R runs the commands on the restarted world. */
  lemma OnKeyRestarts(w: World, mods: bv32, spawned: Motion)
    ensures OnKey(w, KeyR, Release, mods, spawned) == Commands(Restart(w, spawned), KeyR, Release, mods)
  {
  }

  /** A key that is neither D, a speed key nor an arrow leaves the commands with nothing to do. */
  lemma CommandsIgnoreOtherKeys(w: World, key: int, action: int, mods: bv32)
    requires key != KeyD && key != KeyComma && key != KeyPeriod && !IsArrow(key)
    requires w.speed >= 0.0
    ensures Commands(w, key, action, mods) == w
  {
  }

  /** D sets debug mode on press or repeat and clears it on release. */
  lemma DebugKey(w: World, action: int, mods: bv32, spawned: Motion)
    ensures OnKey(w, KeyD, action, mods, spawned).debugging <==> action != Release
  {
  }

  /** While any death timer runs, the arrow keys change nothing. */
  lemma ArrowIgnoredWhileDying(w: World, key: int, action: int, mods: bv32, spawned: Motion)
    requires w.reg.deathTimers != [] && IsArrow(key) && w.speed >= 0.0
    ensures OnKey(w, key, action, mods, spawned) == w
  {
  }

  /**
   With nobody dying, an arrow key sets the player's velocity along its
   axis as the command table says and leaves the other axis, the rest of
   the player's motion and every other motion alone.
   */
  lemma ArrowMovesPlayer(w: World, key: int, action: int, mods: bv32, spawned: Motion)
    requires w.reg.deathTimers == [] && IsArrow(key)
    requires Has(w.reg.motions, w.player)
    ensures var r := OnKey(w, key, action, mods, spawned);
      var before := Get(w.reg.motions, w.player);
      var after := if Has(r.reg.motions, w.player) then Get(r.reg.motions, w.player) else before;
      var v := before.velocity;
      && Has(r.reg.motions, w.player)
      && after == before.(velocity := after.velocity)
      && (key == KeyLeft ==> after.velocity == Vec2(if action == Release then 0.0 else -SwimSpeed, v.y))
      && (key == KeyRight ==> after.velocity == Vec2(if action == Release then 0.0 else if action == Press then SwimSpeed else v.x, v.y))
      && (key == KeyUp ==> after.velocity == Vec2(v.x, if action == Release then 0.0 else -SwimSpeed))
      && (key == KeyDown ==> after.velocity == Vec2(v.x, if action == Release then 0.0 else SwimSpeed))
      && (forall k | 0 <= k < |w.reg.motions| && w.reg.motions[k].entity != w.player ::
            r.reg.motions[k] == w.reg.motions[k])
  {
  }

  /** Releasing an arrow stops the player along that axis, whatever was pressed before. */
  lemma ReleaseStops(w: World, key: int, mods: bv32, spawned: Motion)
    requires w.reg.deathTimers == [] && IsArrow(key)
    requires Has(w.reg.motions, w.player)
    ensures var v := Get(OnKey(w, key, Release, mods, spawned).reg.motions, w.player).velocity;
      (key == KeyLeft || key == KeyRight ==> v.x == 0.0) && (key == KeyUp || key == KeyDown ==> v.y == 0.0)
  {
    ArrowMovesPlayer(w, key, Release, mods, spawned);
  }

  /** The commands after the restart key keep the store valid. */
  lemma CommandsValid(w: World, key: int, action: int, mods: bv32)
    requires Valid(w.reg)
    ensures Valid(Commands(w, key, action, mods).reg)
  {
    if IsArrow(key) && Has(w.reg.motions, w.player) {
      var m := Get(w.reg.motions, w.player);
      var ms := Update(w.reg.motions, w.player, m.(velocity := Command(m.velocity, key, action)));
      SameEntitiesHas(ms, w.reg.motions);
    }
  }

  /** A key event keeps the store valid. */
  lemma OnKeyValid(w: World, key: int, action: int, mods: bv32, spawned: Motion)
    requires Valid(w.reg)
    ensures Valid(OnKey(w, key, action, mods, spawned).reg)
  {
    if action == Release && key == KeyR {
      RestartValid(w, spawned);
      CommandsValid(Restart(w, spawned), key, action, mods);
    } else {
      CommandsValid(w, key, action, mods);
    }
  }
}

=== FILE: physics.dfy ===
/**
 The physics step: Euler integration of every motion, the all-pairs collision
 broad phase, and the per-vertex wall-bounce rule applied to soft shells and
 the player.
 */
module Physics {
  import opened Ecs
  import opened Geometry
  import opened Components

  // ---------------------------------------------------------------------
  // Overlap predicates
  // ---------------------------------------------------------------------

  /** get_bounding_box: the scale without its sign (a negative scale only mirrors the sprite). */
  function BoundingBox(m: Motion): (box: Vec2)
    ensures box.x >= 0.0 && box.y >= 0.0
    ensures box.x == m.scale.x || box.x == -m.scale.x
    ensures box.y == m.scale.y || box.y == -m.scale.y
  {
    Vec2(Abs(m.scale.x), Abs(m.scale.y))
  }

  /** Squared radius of the circle around the bounding box: the squared half-diagonal. */
  function RadiusSquared(m: Motion): (r2: real) {
    var half := BoundingBox(m).Times(0.5);
    half.Dot(half)
  }

  function DistanceSquared(a: Motion, b: Motion): (d2: real) {
    var dp := a.position.Minus(b.position);
    dp.Dot(dp)
  }

  /** collides: the squared centre distance is below the larger squared bounding radius. */
  predicate Collides(a: Motion, b: Motion) {
    DistanceSquared(a, b) < Max(RadiusSquared(a), RadiusSquared(b))
  }

  /** The fixed distance below which two soft shells touch. */
  const SoftShellReach: real := 50.0

  /** circlesIntersect, with the square root moved to the other side of the comparison. */
  predicate CirclesIntersect(a: Motion, b: Motion) {
    DistanceSquared(a, b) < SoftShellReach * SoftShellReach
  }

  /** Whether point `p` lies strictly inside the bounding circle of `m`. */
  predicate InsideCircle(p: Vec2, m: Motion) {
    var d := p.Minus(m.position);
    d.Dot(d) < RadiusSquared(m)
  }

  lemma SquareNonNegative(p: real)
    ensures p * p >= 0.0
  {
    if p < 0.0 {
      var n := -p;
      assert n * n >= 0.0;
      assert n * n == p * p;
    }
  }

  lemma DistanceSquaredFacts(a: Motion, b: Motion)
    ensures DistanceSquared(a, b) == DistanceSquared(b, a)
    ensures DistanceSquared(a, b) >= 0.0
    ensures a.position == b.position ==> DistanceSquared(a, b) == 0.0
  {
    var dx := a.position.x - b.position.x;
    var dy := a.position.y - b.position.y;
    assert (b.position.x - a.position.x) * (b.position.x - a.position.x) == dx * dx;
    assert (b.position.y - a.position.y) * (b.position.y - a.position.y) == dy * dy;
    SquareNonNegative(dx);
    SquareNonNegative(dy);
  }

  /** The bounding radius is never negative and is zero for an entity without extent. */
  lemma RadiusSquaredFacts(m: Motion)
    ensures RadiusSquared(m) >= 0.0
    ensures m.scale == Vec2(0.0, 0.0) ==> RadiusSquared(m) == 0.0
  {
    var half := BoundingBox(m).Times(0.5);
    SquareNonNegative(half.x);
    SquareNonNegative(half.y);
  }

  lemma CollidesSymmetric(a: Motion, b: Motion)
    ensures Collides(a, b) <==> Collides(b, a)
  {
    DistanceSquaredFacts(a, b);
  }

  /**
   The check is the one its comment describes: the centre of either entity
   lies inside the other's bounding circle.
   */
  lemma CollidesIffCentreInside(a: Motion, b: Motion)
    ensures Collides(a, b) <==> InsideCircle(a.position, b) || InsideCircle(b.position, a)
  {
    DistanceSquaredFacts(a, b);
  }

  /** The test is strict: entities without extent never collide, even when they coincide. */
  lemma ZeroScaleNeverCollides(a: Motion, b: Motion)
    requires a.scale == Vec2(0.0, 0.0) && b.scale == Vec2(0.0, 0.0)
    ensures !Collides(a, b)
  {
    DistanceSquaredFacts(a, b);
    RadiusSquaredFacts(a);
    RadiusSquaredFacts(b);
  }

  /** Mirroring an entity (negating its scale) changes neither its box nor its collisions. */
  lemma MirroringKeepsCollisions(a: Motion, b: Motion)
    ensures BoundingBox(a.(scale := Vec2(-a.scale.x, a.scale.y))) == BoundingBox(a)
    ensures Collides(a.(scale := Vec2(-a.scale.x, a.scale.y)), b) <==> Collides(a, b)
  {
  }

  lemma CirclesIntersectSymmetric(a: Motion, b: Motion)
    ensures CirclesIntersect(a, b) <==> CirclesIntersect(b, a)
  {
    DistanceSquaredFacts(a, b);
  }

  /** With `dist` the Euclidean centre distance, the squared test is the source's `dist < 50`. */
  lemma CirclesIntersectIsDistanceBelowReach(a: Motion, b: Motion, dist: real)
    requires dist >= 0.0 && dist * dist == DistanceSquared(a, b)
    ensures CirclesIntersect(a, b) <==> dist < SoftShellReach
  {
    if dist < SoftShellReach {
      MulMono(dist, SoftShellReach, dist);
      assert dist * dist <= dist * SoftShellReach < SoftShellReach * SoftShellReach;
    } else {
      MulMono(SoftShellReach, dist, dist);
      assert dist * dist >= SoftShellReach * dist >= SoftShellReach * SoftShellReach;
    }
  }

  /** Multiplying by a non-negative factor keeps the order. */
  lemma MulMono(a: real, b: real, c: real)
    requires c >= 0.0 && a <= b
    ensures a * c <= b * c
  {
    assert b * c - a * c == (b - a) * c;
  }

  // ---------------------------------------------------------------------
  // Integration
  // ---------------------------------------------------------------------

  /** The frame length in seconds, `1.0f * (elapsed_ms / 1000.f)`. */
  function StepSeconds(elapsedMs: real): (seconds: real) {
    1.0 * (elapsedMs / 1000.0)
  }

  /** Explicit Euler with constant velocity. */
  function Advance(m: Motion, seconds: real): (r: Motion)
    ensures r.position.Minus(m.position) == m.velocity.Times(seconds)
    ensures r.velocity == m.velocity && r.scale == m.scale && r.angle == m.angle
  {
    m.(position := m.position.Plus(m.velocity.Times(seconds)))
  }

  lemma AdvanceCompose(m: Motion, s: real, t: real)
    ensures Advance(Advance(m, s), t) == Advance(m, s + t)
    ensures Advance(m, 0.0) == m
  {
    assert m.velocity.x * s + m.velocity.x * t == m.velocity.x * (s + t);
    assert m.velocity.y * s + m.velocity.y * t == m.velocity.y * (s + t);
  }

  /** The integration loop of the physics step, over the motion container in order. */
  function Integrate(ms: Container<Motion>, elapsedMs: real): (r: Container<Motion>)
    ensures |r| == |ms|
    ensures forall i | 0 <= i < |ms| ::
      && r[i].entity == ms[i].entity
      && r[i].data.position.Minus(ms[i].data.position) == ms[i].data.velocity.Times(elapsedMs / 1000.0)
      && r[i].data.velocity == ms[i].data.velocity
      && r[i].data.scale == ms[i].data.scale
      && r[i].data.angle == ms[i].data.angle
  {
    seq(|ms|, i requires 0 <= i < |ms| => Slot(ms[i].entity, Advance(ms[i].data, StepSeconds(elapsedMs))))
  }

  /** A zero-length frame moves nothing. */
  lemma IntegrateZero(ms: Container<Motion>)
    ensures Integrate(ms, 0.0) == ms
  {
    forall i | 0 <= i < |ms|
      ensures Integrate(ms, 0.0)[i] == ms[i]
    {
      AdvanceCompose(ms[i].data, 0.0, 0.0);
    }
  }

  /** Two frames of `a` and `b` milliseconds move every entity as one frame of `a + b`. */
  lemma IntegrateCompose(ms: Container<Motion>, a: real, b: real)
    ensures Integrate(Integrate(ms, a), b) == Integrate(ms, a + b)
  {
    assert StepSeconds(a) + StepSeconds(b) == StepSeconds(a + b);
    forall i | 0 <= i < |ms|
      ensures Integrate(Integrate(ms, a), b)[i] == Integrate(ms, a + b)[i]
    {
      AdvanceCompose(ms[i].data, StepSeconds(a), StepSeconds(b));
    }
  }

  /** Running a frame backwards undoes it. */
  lemma IntegrateUndo(ms: Container<Motion>, a: real)
    ensures Integrate(Integrate(ms, a), -a) == ms
  {
    IntegrateCompose(ms, a, -a);
    IntegrateZero(ms);
  }

  // ---------------------------------------------------------------------
  // Broad phase
  // ---------------------------------------------------------------------

  /** The overlap test applied to slots `i` and `j`: circles for two soft shells, bounding circles otherwise. */
  predicate Hit(ms: Container<Motion>, soft: Container<Tag>, i: nat, j: nat)
    requires i < |ms| && j < |ms|
  {
    if Has(soft, ms[i].entity) && Has(soft, ms[j].entity) then CirclesIntersect(ms[i].data, ms[j].data)
    else Collides(ms[i].data, ms[j].data)
  }

  /** The collision event recorded for slots `i` and `j`. */
  function PairOf(ms: Container<Motion>, i: nat, j: nat): (event: Slot<Collision>)
    requires i < |ms| && j < |ms|
  {
    Slot(ms[i].entity, Collision(ms[j].entity))
  }

  /** The test results of row `i`: column `k` is hit when it is another slot and the tag-selected test holds. */
  function HitRow(ms: Container<Motion>, soft: Container<Tag>, i: nat): (row: seq<bool>)
    requires i < |ms|
    ensures |row| == |ms|
  {
    seq(|ms|, k requires 0 <= k < |ms| => k != i && Hit(ms, soft, i, k))
  }

  /** The inner loop: the events of row `i` for columns `j` onwards, given the row's test results. */
  function RowPairs(ms: Container<Motion>, row: seq<bool>, i: nat, j: nat): (events: Container<Collision>)
    requires i < |ms| && |row| == |ms| && j <= |ms|
    decreases |ms| - j
  {
    if j == |ms| then []
    else (if row[j] then [PairOf(ms, i, j)] else []) + RowPairs(ms, row, i, j + 1)
  }

  /** The outer loop: the events of rows `i` onwards. */
  function PairsFrom(ms: Container<Motion>, soft: Container<Tag>, i: nat): (events: Container<Collision>)
    requires i <= |ms|
    decreases |ms| - i
  {
    if i == |ms| then [] else RowPairs(ms, HitRow(ms, soft, i), i, 0) + PairsFrom(ms, soft, i + 1)
  }

  /** The collision events of one physics step, in the order the nested loops emplace them. */
  function DetectCollisions(ms: Container<Motion>, soft: Container<Tag>): (events: Container<Collision>) {
    PairsFrom(ms, soft, 0)
  }

  lemma {:induction false} RowPairsMembers(ms: Container<Motion>, row: seq<bool>, i: nat, j: nat, s: Slot<Collision>)
    requires i < |ms| && |row| == |ms| && j <= |ms|
    ensures s in RowPairs(ms, row, i, j) <==> exists k | j <= k < |ms| :: row[k] && s == PairOf(ms, i, k)
    decreases |ms| - j
  {
    if j < |ms| {
      RowPairsMembers(ms, row, i, j + 1, s);
      var head := if row[j] then [PairOf(ms, i, j)] else [];
      var rest := RowPairs(ms, row, i, j + 1);
      assert RowPairs(ms, row, i, j) == head + rest;
      if s in head {
        assert row[j] && s == PairOf(ms, i, j);
      } else if s in rest {
        var k :| j + 1 <= k < |ms| && row[k] && s == PairOf(ms, i, k);
        assert j <= k;
      }
      if exists k | j <= k < |ms| :: row[k] && s == PairOf(ms, i, k) {
        var k :| j <= k < |ms| && row[k] && s == PairOf(ms, i, k);
        if k == j {
          assert s in head;
        } else {
          assert s in rest;
        }
      }
    }
  }

  lemma {:induction false} PairsFromMembers(ms: Container<Motion>, soft: Container<Tag>, i: nat, s: Slot<Collision>)
    requires i <= |ms|
    ensures s in PairsFrom(ms, soft, i) <==>
      exists a, b | i <= a < |ms| && 0 <= b < |ms| :: a != b && Hit(ms, soft, a, b) && s == PairOf(ms, a, b)
    decreases |ms| - i
  {
    if i < |ms| {
      var row := HitRow(ms, soft, i);
      RowPairsMembers(ms, row, i, 0, s);
      PairsFromMembers(ms, soft, i + 1, s);
      if s in RowPairs(ms, row, i, 0) {
        var k :| 0 <= k < |ms| && row[k] && s == PairOf(ms, i, k);
        assert i <= i < |ms| && 0 <= k < |ms| && i != k && Hit(ms, soft, i, k) && s == PairOf(ms, i, k);
      }
      if exists a, b | i <= a < |ms| && 0 <= b < |ms| :: a != b && Hit(ms, soft, a, b) && s == PairOf(ms, a, b) {
        var a, b :| i <= a < |ms| && 0 <= b < |ms| && a != b && Hit(ms, soft, a, b) && s == PairOf(ms, a, b);
        if a == i {
          assert 0 <= b < |ms| && row[b] && s == PairOf(ms, i, b);
        } else {
          assert i + 1 <= a < |ms|;
        }
      }
    }
  }

  lemma HitSymmetric(ms: Container<Motion>, soft: Container<Tag>, i: nat, j: nat)
    requires i < |ms| && j < |ms|
    ensures Hit(ms, soft, i, j) <==> Hit(ms, soft, j, i)
  {
    CollidesSymmetric(ms[i].data, ms[j].data);
    CirclesIntersectSymmetric(ms[i].data, ms[j].data);
  }

  /**
   The broad phase records slots `(i, j)` exactly when they are different
   slots and the tag-selected test holds; in particular an entity never
   collides with itself.
   */
  lemma DetectCollisionsRecords(ms: Container<Motion>, soft: Container<Tag>, i: nat, j: nat)
    requires Distinct(ms) && i < |ms| && j < |ms|
    ensures PairOf(ms, i, j) in DetectCollisions(ms, soft) <==> i != j && Hit(ms, soft, i, j)
  {
    PairsFromMembers(ms, soft, 0, PairOf(ms, i, j));
  }

  lemma DetectCollisionsNoSelfPairs(ms: Container<Motion>, soft: Container<Tag>, s: Slot<Collision>)
    requires Distinct(ms) && s in DetectCollisions(ms, soft)
    ensures s.entity != s.data.other
  {
    PairsFromMembers(ms, soft, 0, s);
  }

  /** Every recorded event has its mirror image recorded too. */
  lemma DetectCollisionsSymmetric(ms: Container<Motion>, soft: Container<Tag>, s: Slot<Collision>)
    requires s in DetectCollisions(ms, soft)
    ensures Slot(s.data.other, Collision(s.entity)) in DetectCollisions(ms, soft)
  {
    PairsFromMembers(ms, soft, 0, s);
    var a, b :| 0 <= a < |ms| && 0 <= b < |ms| && a != b && Hit(ms, soft, a, b) && s == PairOf(ms, a, b);
    HitSymmetric(ms, soft, a, b);
    PairsFromMembers(ms, soft, 0, PairOf(ms, b, a));
  }

  predicate NoDuplicates<T(==)>(s: seq<T>) {
    forall p, q | 0 <= p < q < |s| :: s[p] != s[q]
  }

  lemma NoDuplicatesConcat<T>(x: seq<T>, y: seq<T>)
    requires NoDuplicates(x) && NoDuplicates(y)
    requires forall a | a in x :: a !in y
    ensures NoDuplicates(x + y)
  {
    var z := x + y;
    forall p, q | 0 <= p < q < |z|
      ensures z[p] != z[q]
    {
      if p < |x| && q >= |x| {
        assert z[p] in x && z[q] == y[q - |x|];
      } else if p >= |x| {
        assert z[p] == y[p - |x|] && z[q] == y[q - |x|];
      }
    }
  }

  lemma {:induction false} RowPairsNoDuplicates(ms: Container<Motion>, row: seq<bool>, i: nat, j: nat)
    requires Distinct(ms) && i < |ms| && |row| == |ms| && j <= |ms|
    ensures NoDuplicates(RowPairs(ms, row, i, j))
    decreases |ms| - j
  {
    if j < |ms| {
      RowPairsNoDuplicates(ms, row, i, j + 1);
      var rest := RowPairs(ms, row, i, j + 1);
      forall s | s in rest
        ensures s != PairOf(ms, i, j)
      {
        RowPairsMembers(ms, row, i, j + 1, s);
      }
      NoDuplicatesConcat(if row[j] then [PairOf(ms, i, j)] else [], rest);
    }
  }

  lemma {:induction false} PairsFromNoDuplicates(ms: Container<Motion>, soft: Container<Tag>, i: nat)
    requires Distinct(ms) && i <= |ms|
    ensures NoDuplicates(PairsFrom(ms, soft, i))
    decreases |ms| - i
  {
    if i < |ms| {
      var row := HitRow(ms, soft, i);
      RowPairsNoDuplicates(ms, row, i, 0);
      PairsFromNoDuplicates(ms, soft, i + 1);
      forall s | s in RowPairs(ms, row, i, 0)
        ensures s !in PairsFrom(ms, soft, i + 1)
      {
        RowPairsMembers(ms, row, i, 0, s);
        PairsFromMembers(ms, soft, i + 1, s);
      }
      NoDuplicatesConcat(RowPairs(ms, row, i, 0), PairsFrom(ms, soft, i + 1));
    }
  }

  /** Each ordered pair of entities is recorded at most once per step. */
  lemma DetectCollisionsOnce(ms: Container<Motion>, soft: Container<Tag>)
    requires Distinct(ms)
    ensures NoDuplicates(DetectCollisions(ms, soft))
  {
    PairsFromNoDuplicates(ms, soft, 0);
  }

  // ---------------------------------------------------------------------
  // Wall bounce
  // ---------------------------------------------------------------------

  /** C++ float-to-int conversion: truncation toward zero. */
  function Trunc(x: real): (n: int)
    ensures x >= 0.0 ==> 0 <= n && n as real <= x < n as real + 1.0
    ensures x < 0.0 ==> n <= 0 && n as real - 1.0 < x <= n as real
  {
    if x >= 0.0 then x.Floor else -((-x).Floor)
  }

  /** A vertex counts as above the top edge only once it is a whole unit above it. */
  lemma TruncBelowZero(y: real)
    ensures Trunc(y) < 0 <==> y <= -1.0
  {
  }

  /** The vertical speed given to an entity that touches a wall while standing still vertically. */
  const PushOffSpeed: real := 100.0

  /**
   The body of the vertex loop of handleMeshWallCollisions: `vertex` is the
   world coordinate the loop converts to `int`.
   */
  function VertexBounce(v: Vec2, vertex: Vec2, width: real, height: real): (u: Vec2) {
    var gy := Trunc(vertex.y);
    var gx := Trunc(vertex.x);
    var vy1 := if gy < 0 && v.y <= 0.0 then (if v.y == 0.0 then PushOffSpeed else -v.y) else v.y;
    var vy2 := if gy as real > height && vy1 >= 0.0 then (if vy1 == 0.0 then -PushOffSpeed else -vy1) else vy1;
    var vx := if gx < 0 || (gx as real > width && v.x > 0.0) then -v.x else v.x;
    Vec2(vx, vy2)
  }

  /** Above the top edge, a vertical speed that was not already downward becomes downward (positive y). */
  lemma VertexBounceTop(v: Vec2, vertex: Vec2, width: real, height: real)
    requires height >= 0.0 && Trunc(vertex.y) < 0 && v.y <= 0.0
    ensures VertexBounce(v, vertex, width, height).y > 0.0
    ensures v.y != 0.0 ==> VertexBounce(v, vertex, width, height).y == -v.y
  {
  }

  /** Below the bottom edge, a vertical speed that was not already upward becomes upward. */
  lemma VertexBounceBottom(v: Vec2, vertex: Vec2, width: real, height: real)
    requires Trunc(vertex.y) as real > height && v.y >= 0.0
    ensures VertexBounce(v, vertex, width, height).y < 0.0
  {
  }

  /** Inside the vertical band, or already heading back, the vertical speed is left alone. */
  lemma VertexBounceVerticalQuiet(v: Vec2, vertex: Vec2, width: real, height: real)
    requires !(Trunc(vertex.y) < 0 && v.y <= 0.0) && !(Trunc(vertex.y) as real > height && v.y >= 0.0)
    ensures VertexBounce(v, vertex, width, height).y == v.y
  {
  }

  /** Past the right edge, an entity ends up not moving rightwards. */
  lemma VertexBounceRight(v: Vec2, vertex: Vec2, width: real, height: real)
    requires width >= 0.0 && Trunc(vertex.x) as real > width
    ensures VertexBounce(v, vertex, width, height).x <= 0.0
    ensures VertexBounce(v, vertex, width, height).x == -Abs(v.x)
  {
  }

  /**
   Past the left edge the horizontal speed is negated whatever its sign, so
   two vertices past that edge cancel: an entity moving left keeps moving left.
   */
  lemma LeftEdgeFlipsTwice(v: Vec2, a: Vec2, b: Vec2, width: real, height: real)
    requires height >= 0.0 && Trunc(a.x) < 0 && Trunc(b.x) < 0
    requires 0 <= Trunc(a.y) && Trunc(a.y) as real <= height
    requires 0 <= Trunc(b.y) && Trunc(b.y) as real <= height
    ensures VertexBounce(VertexBounce(v, a, width, height), b, width, height) == v
  {
  }

  /** The vertex loop: the rule applied to each vertex in turn, velocity carried along. */
  function MeshBounce(v: Vec2, vertices: seq<Vec2>, width: real, height: real): (u: Vec2)
    decreases |vertices|
  {
    if vertices == [] then v else MeshBounce(VertexBounce(v, vertices[0], width, height), vertices[1..], width, height)
  }

  /**
   Wall handling only ever reverses speed components: |vx| is kept, and |vy|
   is kept unless it was zero, in which case it may become the push-off speed.
   */
  lemma {:induction false} MeshBounceMagnitudes(v: Vec2, vertices: seq<Vec2>, width: real, height: real)
    ensures Abs(MeshBounce(v, vertices, width, height).x) == Abs(v.x)
    ensures var vy := MeshBounce(v, vertices, width, height).y;
      Abs(vy) == Abs(v.y) || (v.y == 0.0 && Abs(vy) == PushOffSpeed)
    decreases |vertices|
  {
    if vertices != [] {
      var v1 := VertexBounce(v, vertices[0], width, height);
      MeshBounceMagnitudes(v1, vertices[1..], width, height);
    }
  }

  predicate OnWindow(vertex: Vec2, width: real, height: real) {
    0 <= Trunc(vertex.x) && Trunc(vertex.x) as real <= width
    && 0 <= Trunc(vertex.y) && Trunc(vertex.y) as real <= height
  }

  /** A mesh entirely inside the window is not bounced at all. */
  lemma {:induction false} MeshBounceInside(v: Vec2, vertices: seq<Vec2>, width: real, height: real)
    requires forall k | 0 <= k < |vertices| :: OnWindow(vertices[k], width, height)
    ensures MeshBounce(v, vertices, width, height) == v
    decreases |vertices|
  {
    if vertices != [] {
      assert OnWindow(vertices[0], width, height);
      MeshBounceInside(v, vertices[1..], width, height);
    }
  }

  /** The vertices of an entity's mesh in world coordinates; an entity without a mesh has none. */
  function VerticesOf(meshes: map<Entity, seq<Vec2>>, e: Entity): (vertices: seq<Vec2>) {
    if e in meshes then meshes[e] else []
  }

  /**
   handleMeshWallCollisions for one entity: its velocity becomes the result
   of the vertex loop, no other slot changes, and speeds are only reversed.
   */
  function BounceEntity(ms: Container<Motion>, e: Entity, meshes: map<Entity, seq<Vec2>>, width: real, height: real): (r: Container<Motion>)
    ensures |r| == |ms|
    ensures forall k | 0 <= k < |ms| ::
      && r[k].entity == ms[k].entity
      && r[k].data.position == ms[k].data.position
      && r[k].data.scale == ms[k].data.scale
      && r[k].data.angle == ms[k].data.angle
    ensures Has(ms, e) ==> Has(r, e) && Get(r, e).velocity == MeshBounce(Get(ms, e).velocity, VerticesOf(meshes, e), width, height)
    ensures forall k | 0 <= k < |ms| && ms[k].entity != e :: r[k] == ms[k]
    ensures forall k | 0 <= k < |ms| :: SpeedsKept(ms[k].data.velocity, r[k].data.velocity)
  {
    if Has(ms, e) then
      var m := Get(ms, e);
      MeshBounceMagnitudes(m.velocity, VerticesOf(meshes, e), width, height);
      Update(ms, e, m.(velocity := MeshBounce(m.velocity, VerticesOf(meshes, e), width, height)))
    else ms
  }

  /**
   The speed magnitudes the wall rule allows after velocity `v`: |vx| is
   kept, and |vy| is kept or, from a standstill, becomes the push-off speed.
   */
  predicate SpeedsKept(v: Vec2, u: Vec2) {
    Abs(u.x) == Abs(v.x) && (Abs(u.y) == Abs(v.y) || (v.y == 0.0 && Abs(u.y) == PushOffSpeed))
  }

  /** The wall pass over the given entities, in order. */
  function BounceAll(ms: Container<Motion>, es: seq<Entity>, meshes: map<Entity, seq<Vec2>>, width: real, height: real): (r: Container<Motion>)
    ensures |r| == |ms|
    ensures forall k | 0 <= k < |ms| ::
      && r[k].entity == ms[k].entity
      && r[k].data.position == ms[k].data.position
      && r[k].data.scale == ms[k].data.scale
      && r[k].data.angle == ms[k].data.angle
    ensures forall k | 0 <= k < |ms| && ms[k].entity !in es :: r[k] == ms[k]
    ensures forall k | 0 <= k < |ms| :: SpeedsKept(ms[k].data.velocity, r[k].data.velocity)
    decreases |es|
  {
    if es == [] then ms
    else
      var once := BounceEntity(ms, es[0], meshes, width, height);
      var r := BounceAll(once, es[1..], meshes, width, height);
      assert forall k | 0 <= k < |ms| && ms[k].entity !in es :: ms[k].entity !in es[1..] && ms[k].entity != es[0];
      r
  }

  /**
   Over a store with one motion per entity, every entity listed exactly once
   ends with the velocity the vertex loop gives for its own mesh.
   */
  lemma {:induction false} BounceAllTargets(ms: Container<Motion>, es: seq<Entity>, meshes: map<Entity, seq<Vec2>>, width: real, height: real)
    requires Distinct(ms)
    ensures forall k | 0 <= k < |ms| && multiset(es)[ms[k].entity] == 1 ::
      BounceAll(ms, es, meshes, width, height)[k].data.velocity
        == MeshBounce(ms[k].data.velocity, VerticesOf(meshes, ms[k].entity), width, height)
    decreases |es|
  {
    if es != [] {
      var once := BounceEntity(ms, es[0], meshes, width, height);
      assert Distinct(once);
      BounceAllTargets(once, es[1..], meshes, width, height);
      assert es == [es[0]] + es[1..];
      assert multiset(es) == multiset{es[0]} + multiset(es[1..]);
      forall k | 0 <= k < |ms| && multiset(es)[ms[k].entity] == 1
        ensures BounceAll(ms, es, meshes, width, height)[k].data.velocity
          == MeshBounce(ms[k].data.velocity, VerticesOf(meshes, ms[k].entity), width, height)
      {
        var e := ms[k].entity;
        if e == es[0] {
          assert e !in es[1..];
          IndexOfDistinct(ms, k);
          IndexOfDistinct(once, k);
        }
      }
    }
  }

  /** Soft shells in container order, then the first player when there is one. */
  function WallTargets(reg: Registry): (targets: seq<Entity>) {
    seq(|reg.softShells|, k requires 0 <= k < |reg.softShells| => reg.softShells[k].entity)
    + (if |reg.players| > 0 then [reg.players[0].entity] else [])
  }

  /**
   PhysicsSystem::step. `meshes` holds each entity's mesh vertices in world
   coordinates after this step's integration.
   */
  function PhysicsStep(reg: Registry, elapsedMs: real, width: real, height: real, meshes: map<Entity, seq<Vec2>>): (r: Registry)
    ensures r.collisions == reg.collisions + DetectCollisions(Integrate(reg.motions, elapsedMs), reg.softShells)
    ensures |r.motions| == |reg.motions|
    ensures forall k | 0 <= k < |reg.motions| ::
      && r.motions[k].entity == reg.motions[k].entity
      && r.motions[k].data.position == Integrate(reg.motions, elapsedMs)[k].data.position
      && r.motions[k].data.position.Minus(reg.motions[k].data.position) == reg.motions[k].data.velocity.Times(elapsedMs / 1000.0)
      && r.motions[k].data.scale == reg.motions[k].data.scale
      && r.motions[k].data.angle == reg.motions[k].data.angle
      && SpeedsKept(reg.motions[k].data.velocity, r.motions[k].data.velocity)
    ensures forall k | 0 <= k < |reg.motions| && reg.motions[k].entity !in WallTargets(reg) ::
      r.motions[k].data.velocity == reg.motions[k].data.velocity
    ensures Distinct(reg.motions) ==>
      forall k | 0 <= k < |reg.motions| && multiset(WallTargets(reg))[reg.motions[k].entity] == 1 ::
        r.motions[k].data.velocity
          == MeshBounce(reg.motions[k].data.velocity, VerticesOf(meshes, reg.motions[k].entity), width, height)
    ensures r.softShells == reg.softShells && r.players == reg.players
      && r.deathTimers == reg.deathTimers && r.colors == reg.colors && r.nextEntity == reg.nextEntity
  {
    var moved := Integrate(reg.motions, elapsedMs);
    var events := DetectCollisions(moved, reg.softShells);
    var bounced := BounceAll(moved, WallTargets(reg), meshes, width, height);
    assert Distinct(reg.motions) ==> Distinct(moved);
    assert Distinct(reg.motions) ==>
      forall k | 0 <= k < |moved| && multiset(WallTargets(reg))[moved[k].entity] == 1 ::
        bounced[k].data.velocity == MeshBounce(moved[k].data.velocity, VerticesOf(meshes, moved[k].entity), width, height)
    by {
      if Distinct(reg.motions) {
        BounceAllTargets(moved, WallTargets(reg), meshes, width, height);
      }
    }
    reg.(motions := bounced, collisions := reg.collisions + events)
  }
}

=== FILE: world.dfy ===
/**
 The per-frame world rules: the off-screen sweep, the death-timer countdown
 with its screen darkening, and the game restart.
 */
module Game {
  import opened Ecs
  import opened Geometry
  import opened Components

  /** The world system's state: the registry plus the fields of the world object. */
  datatype World = World(
    reg: Registry,
    /** The global speed multiplier. */
    speed: real,
    points: int,
    /** The screen darkening factor: 0 is fully lit. */
    darken: real,
    debugging: bool,
    /** The entity handle of the player salmon. */
    player: Entity)

  // ---------------------------------------------------------------------
  // Off-screen sweep
  // ---------------------------------------------------------------------

  /** An entity stays while its right edge has not passed the left border. */
  predicate OnScreen(m: Motion) {
    !(m.position.x + Abs(m.scale.x) < 0.0)
  }

  predicate Visible(s: Slot<Motion>) {
    OnScreen(s.data)
  }

  /** The entities among slots `from..` of `ms` that have left the screen. */
  function OffScreenFrom(ms: Container<Motion>, from: int): (gone: set<Entity>) {
    set k | 0 <= k < |ms| && from <= k && !Visible(ms[k]) :: ms[k].entity
  }

  function OffScreen(ms: Container<Motion>): (gone: set<Entity>) {
    OffScreenFrom(ms, 0)
  }

  /** The registry containers, other than motions, lose exactly the entities in `gone`. */
  ghost predicate StrippedOf(r: Registry, reg: Registry, gone: set<Entity>) {
    forall x: Entity ::
      && (Has(r.softShells, x) <==> Has(reg.softShells, x) && x !in gone)
      && (Has(r.players, x) <==> Has(reg.players, x) && x !in gone)
      && (Has(r.deathTimers, x) <==> Has(reg.deathTimers, x) && x !in gone)
      && (Has(r.colors, x) <==> Has(reg.colors, x) && x !in gone)
  }

  /**
   The sweep's invariant on the motion slots after `i` slots are left to visit:
   the unvisited prefix is untouched, and the visited part holds exactly the
   visible slots the original had there.
   */
  ghost predicate SweptFrom(orig: Container<Motion>, cur: Container<Motion>, i: int) {
    && 0 <= i <= |cur|
    && i <= |orig|
    && cur[..i] == orig[..i]
    && (forall k | i <= k < |cur| :: Visible(cur[k]))
    && multiset(cur[i..]) == multiset(Filter(orig[i..], Visible))
  }

  /** Swap-remove of slot `i` rearranges the slots after `i`: the last one moves into the hole. */
  lemma SwapRemoveTail<T>(cur: Container<T>, i: nat)
    requires i < |cur|
    ensures var n := SwapRemoveAt(cur, i);
      && multiset(n[i..]) == multiset(cur[i + 1..])
      && (forall k | i < k < |n| :: n[k] == cur[k])
      && (i < |n| ==> n[i] == cur[|cur| - 1])
  {
    var n := SwapRemoveAt(cur, i);
    if i < |n| {
      var mid := cur[i + 1..|cur| - 1];
      assert n[i..] == [cur[|cur| - 1]] + mid;
      assert cur[i + 1..] == mid + [cur[|cur| - 1]];
      forall k | i < k < |n|
        ensures n[k] == cur[k]
      {
        assert n[k] == n[i + 1..][k - i - 1];
      }
    }
  }

  /** Dropping the off-screen slot `i` with swap-remove keeps the sweep's invariant. */
  lemma SweepDrop(orig: Container<Motion>, cur: Container<Motion>, i: nat)
    requires i < |cur| && SweptFrom(orig, cur, i + 1) && !Visible(cur[i])
    ensures SweptFrom(orig, SwapRemoveAt(cur, i), i)
  {
    var n := SwapRemoveAt(cur, i);
    assert cur[i] == orig[i] by {
      assert cur[..i + 1][i] == orig[..i + 1][i];
    }
    FilterHead(orig, i, Visible);
    assert n[..i] == orig[..i] by {
      assert cur[..i] == cur[..i + 1][..i];
    }
    SwapRemoveTail(cur, i);
  }

  /** Passing over the visible slot `i` keeps the sweep's invariant. */
  lemma SweepKeep(orig: Container<Motion>, cur: Container<Motion>, i: nat)
    requires i < |cur| && SweptFrom(orig, cur, i + 1) && Visible(cur[i])
    ensures SweptFrom(orig, cur, i)
  {
    assert cur[i] == orig[i] by {
      assert cur[..i + 1][i] == orig[..i + 1][i];
    }
    FilterHead(orig, i, Visible);
    assert cur[i..] == [cur[i]] + cur[i + 1..];
    assert cur[..i] == cur[..i + 1][..i];
  }

  /** The off-screen entities from slot `i` on: slot `i`'s, when it is off-screen, and those after it. */
  lemma OffScreenFromStep(ms: Container<Motion>, i: nat)
    requires i < |ms|
    ensures OffScreenFrom(ms, i) == OffScreenFrom(ms, i + 1) + (if Visible(ms[i]) then {} else {ms[i].entity})
  {
  }

  /** Stripping one more entity extends what the registry has been stripped of. */
  lemma StrippedOfOneMore(reg: Registry, before: Registry, gone: set<Entity>, e: Entity)
    requires Valid(before) && StrippedOf(before, reg, gone)
    ensures StrippedOf(RemoveAllComponentsOf(before, e), reg, gone + {e})
  {
    RemoveAllComponentsOfValid(before, e);
  }

  /**
   The sweep of WorldSystem::step: walk the motion container backwards and
   strip every entity that has left the screen. Removal moves the last slot
   into the hole; that slot has been visited already, so every slot is
   looked at exactly once.
   */
  method SweepOffScreen(reg: Registry) returns (r: Registry)
    requires Valid(reg)
    ensures Valid(r)
    ensures multiset(r.motions) == multiset(Filter(reg.motions, Visible))
    ensures forall k | 0 <= k < |r.motions| :: Visible(r.motions[k])
    ensures StrippedOf(r, reg, OffScreen(reg.motions))
    ensures r.nextEntity == reg.nextEntity
  {
    r := reg;
    var i: int := |reg.motions| - 1;
    while i >= 0
      invariant -1 <= i < |r.motions|
      invariant Valid(r) && r.nextEntity == reg.nextEntity
      invariant SweptFrom(reg.motions, r.motions, i + 1)
      invariant StrippedOf(r, reg, OffScreenFrom(reg.motions, i + 1))
      decreases i
    {
      var s := r.motions[i];
      assert s == reg.motions[i] by {
        assert r.motions[..i + 1][i] == reg.motions[..i + 1][i];
      }
      if !OnScreen(s.data) {
        var before := r;
        SweepDrop(reg.motions, before.motions, i);
        IndexOfDistinct(before.motions, i);
        RemoveAllComponentsOfValid(before, s.entity);
        StrippedOfOneMore(reg, before, OffScreenFrom(reg.motions, i + 1), s.entity);
        r := RemoveAllComponentsOf(before, s.entity);
      } else {
        SweepKeep(reg.motions, r.motions, i);
      }
      OffScreenFromStep(reg.motions, i);
      i := i - 1;
    }
    assert reg.motions[0..] == reg.motions;
    assert r.motions[0..] == r.motions;
  }

  // ---------------------------------------------------------------------
  // Death timers
  // ---------------------------------------------------------------------

  /** Remaining dying time at which the screen is fully lit; also the initial minimum. */
  const DarkenRangeMs: real := 3000.0

  datatype Countdown =
    | Expired(timers: Container<DeathTimer>, at: nat)
    | Running(timers: Container<DeathTimer>, minMs: real)

  predicate SameEntities<T, U>(a: Container<T>, b: Container<U>) {
    |a| == |b| && forall k | 0 <= k < |a| :: a[k].entity == b[k].entity
  }

  lemma SameEntitiesHas<T>(a: Container<T>, b: Container<T>)
    requires SameEntities(a, b)
    ensures Distinct(a) <==> Distinct(b)
    ensures forall x :: Has(a, x) <==> Has(b, x)
  {
    forall x
      ensures Has(a, x) <==> Has(b, x)
    {
      if Has(a, x) {
        var k :| 0 <= k < |a| && a[k].entity == x;
        assert b[k].entity == x;
      }
      if Has(b, x) {
        var k :| 0 <= k < |b| && b[k].entity == x;
        assert a[k].entity == x;
      }
    }
  }

  /**
   The timer loop from slot `i` on: each counter is decreased by the frame
   length, the minimum is tracked, and the first counter that drops below
   zero stops the loop.
   */
  function CountDown(ts: Container<DeathTimer>, elapsedMs: real, i: nat, minMs: real): (c: Countdown)
    requires i <= |ts|
    ensures SameEntities(c.timers, ts)
    ensures c.Expired? ==> i <= c.at < |ts|
    decreases |ts| - i
  {
    if i == |ts| then Running(ts, minMs)
    else
      var counter := ts[i].data.counterMs - elapsedMs;
      var ts' := ts[i := Slot(ts[i].entity, DeathTimer(counter))];
      var min' := if counter < minMs then counter else minMs;
      if counter < 0.0 then Expired(ts', i)
      else
        var c := CountDown(ts', elapsedMs, i + 1, min');
        assert forall k | i + 1 <= k < |ts| :: ts'[k] == ts[k];
        c
  }

  /** The loop stops early exactly when some counter from `i` on drops below zero. */
  lemma {:induction false} CountDownStops(ts: Container<DeathTimer>, elapsedMs: real, i: nat, minMs: real)
    requires i <= |ts|
    ensures CountDown(ts, elapsedMs, i, minMs).Expired? <==> exists k | i <= k < |ts| :: ts[k].data.counterMs - elapsedMs < 0.0
    decreases |ts| - i
  {
    if i < |ts| {
      var counter := ts[i].data.counterMs - elapsedMs;
      var ts' := ts[i := Slot(ts[i].entity, DeathTimer(counter))];
      var min' := if counter < minMs then counter else minMs;
      if counter >= 0.0 {
        CountDownStops(ts', elapsedMs, i + 1, min');
        assert CountDown(ts, elapsedMs, i, minMs) == CountDown(ts', elapsedMs, i + 1, min');
        assert forall k | i + 1 <= k < |ts| :: ts'[k] == ts[k];
        if exists k | i <= k < |ts| :: ts[k].data.counterMs - elapsedMs < 0.0 {
          var k :| i <= k < |ts| && ts[k].data.counterMs - elapsedMs < 0.0;
          assert k != i;
          assert ts'[k] == ts[k];
        }
      }
    }
  }

  /**
   When the loop stops early it stops at the first counter that drops below
   zero; the counters before it and that one are decreased by the frame
   length, the rest are untouched.
   */
  lemma {:induction false} CountDownExpired(ts: Container<DeathTimer>, elapsedMs: real, i: nat, minMs: real)
    requires i <= |ts|
    ensures var c := CountDown(ts, elapsedMs, i, minMs);
      c.Expired? ==>
        && c.timers[c.at].data.counterMs < 0.0
        && (forall k | i <= k <= c.at :: c.timers[k].data.counterMs == ts[k].data.counterMs - elapsedMs)
        && (forall k | i <= k < c.at :: c.timers[k].data.counterMs >= 0.0)
        && (forall k | 0 <= k < |ts| && (k < i || c.at < k) :: c.timers[k] == ts[k])
    decreases |ts| - i
  {
    if i < |ts| {
      var counter := ts[i].data.counterMs - elapsedMs;
      var ts' := ts[i := Slot(ts[i].entity, DeathTimer(counter))];
      var min' := if counter < minMs then counter else minMs;
      if counter < 0.0 {
        assert CountDown(ts, elapsedMs, i, minMs) == Expired(ts', i);
        forall k | 0 <= k < |ts| && k != i
          ensures ts'[k] == ts[k]
        {
        }
      } else {
        var c := CountDown(ts', elapsedMs, i + 1, min');
        CountDownExpired(ts', elapsedMs, i + 1, min');
        assert CountDown(ts, elapsedMs, i, minMs) == c;
        if c.Expired? {
          forall k | i <= k <= c.at
            ensures c.timers[k].data.counterMs == ts[k].data.counterMs - elapsedMs
          {
            if k == i {
              assert c.timers[i] == ts'[i];
            }
          }
          forall k | i <= k < c.at
            ensures c.timers[k].data.counterMs >= 0.0
          {
            if k == i {
              assert c.timers[i] == ts'[i];
            }
          }
          forall k | 0 <= k < |ts| && (k < i || c.at < k)
            ensures c.timers[k] == ts[k]
          {
            assert ts'[k] == ts[k];
          }
        }
      }
    }
  }

  /**
   When the loop runs to the end, every counter from `i` on is decreased by
   the frame length and non-negative, the earlier ones are untouched, and
   the tracked minimum is at most its start value and every counter.
   */
  lemma {:induction false} CountDownRunning(ts: Container<DeathTimer>, elapsedMs: real, i: nat, minMs: real)
    requires i <= |ts|
    ensures var c := CountDown(ts, elapsedMs, i, minMs);
      c.Running? ==>
        && (forall k | 0 <= k < i :: c.timers[k] == ts[k])
        && (forall k | i <= k < |ts| :: c.timers[k].data.counterMs == ts[k].data.counterMs - elapsedMs >= 0.0)
        && c.minMs <= minMs
        && (forall k | i <= k < |ts| :: c.minMs <= c.timers[k].data.counterMs)
        && (minMs >= 0.0 ==> c.minMs >= 0.0)
    decreases |ts| - i
  {
    if i < |ts| {
      var counter := ts[i].data.counterMs - elapsedMs;
      var ts' := ts[i := Slot(ts[i].entity, DeathTimer(counter))];
      var min' := if counter < minMs then counter else minMs;
      if counter >= 0.0 {
        var c := CountDown(ts', elapsedMs, i + 1, min');
        CountDownRunning(ts', elapsedMs, i + 1, min');
        assert CountDown(ts, elapsedMs, i, minMs) == c;
        if c.Running? {
          forall k | 0 <= k < i
            ensures c.timers[k] == ts[k]
          {
            assert ts'[k] == ts[k];
          }
          forall k | i <= k < |ts|
            ensures c.timers[k].data.counterMs == ts[k].data.counterMs - elapsedMs >= 0.0
            ensures c.minMs <= c.timers[k].data.counterMs
          {
            if k == i {
              assert c.timers[i] == ts'[i];
            }
          }
        }
      }
    }
  }

  /**
   The tracked minimum is attained: it is the starting value or one of the
   decremented counters, so with the bounds of CountDown it is exactly the
   smaller of the two.
   */
  lemma {:induction false} CountDownMinimum(ts: Container<DeathTimer>, elapsedMs: real, i: nat, minMs: real)
    requires i <= |ts|
    ensures var c := CountDown(ts, elapsedMs, i, minMs);
      c.Running? ==> c.minMs == minMs || exists k | i <= k < |ts| :: c.minMs == c.timers[k].data.counterMs
    decreases |ts| - i
  {
    if i < |ts| {
      var counter := ts[i].data.counterMs - elapsedMs;
      var ts' := ts[i := Slot(ts[i].entity, DeathTimer(counter))];
      var min' := if counter < minMs then counter else minMs;
      if counter >= 0.0 {
        CountDownMinimum(ts', elapsedMs, i + 1, min');
        CountDownRunning(ts', elapsedMs, i + 1, min');
        var c := CountDown(ts', elapsedMs, i + 1, min');
        if c.Running? && c.minMs == min' && counter < minMs {
          assert c.timers[i] == ts'[i];
        }
      }
    }
  }

  predicate Expires(ts: Container<DeathTimer>, elapsedMs: real) {
    exists k | 0 <= k < |ts| :: ts[k].data.counterMs - elapsedMs < 0.0
  }

  // ---------------------------------------------------------------------
  // Restart
  // ---------------------------------------------------------------------

  /** Where restart_game places the new player. */
  const SpawnPosition: Vec2 := Vec2(100.0, 200.0)

  /** The player's colour after a restart. */
  const PlayerColor: Color := Color(0.0, 255.0, 0.0)

  /** The loop of restart_game that strips the entity owning the last motion until none is left. */
  function RemoveMotionBearing(reg: Registry): (r: Registry)
    ensures r.motions == [] && r.nextEntity == reg.nextEntity
    decreases |reg.motions|
  {
    if |reg.motions| == 0 then reg
    else
      var e := reg.motions[|reg.motions| - 1].entity;
      assert Has(reg.motions, e);
      RemoveMotionBearing(RemoveAllComponentsOf(reg, e))
  }

  lemma EmptyHasNothing<T>(c: Container<T>)
    requires forall x :: !Has(c, x)
    ensures c == []
  {
    if c != [] {
      assert Has(c, c[0].entity);
    }
  }

  /**
   Clearing the motion-bearing entities keeps the store valid, which leaves
   no tag or death timer behind; a colour survives exactly when its entity
   had no motion.
   */
  lemma {:induction false} RemoveMotionBearingValid(reg: Registry)
    requires Valid(reg)
    ensures Valid(RemoveMotionBearing(reg))
    ensures forall x :: Has(RemoveMotionBearing(reg).colors, x) <==> Has(reg.colors, x) && !Has(reg.motions, x)
    decreases |reg.motions|
  {
    if |reg.motions| > 0 {
      var e := reg.motions[|reg.motions| - 1].entity;
      var next := RemoveAllComponentsOf(reg, e);
      RemoveAllComponentsOfValid(reg, e);
      RemoveMotionBearingValid(next);
      assert Has(reg.motions, e);
    }
  }

  /** The colour set-up of restart_game: insert the pale default, then overwrite it with green. */
  function PaintPlayer(colors: Container<Color>, id: Entity): (r: Container<Color>)
    ensures Has(r, id) && Get(r, id) == PlayerColor
  {
    Update(Emplace(colors, id, Color(1.0, 0.8, 0.8)), id, PlayerColor)
  }

  /** Painting a fresh entity keeps the colours distinct and adds only that entity. */
  lemma PaintPlayerKeeps(colors: Container<Color>, id: Entity)
    requires Distinct(colors) && forall x: Entity | Has(colors, x) :: x < id
    ensures Distinct(PaintPlayer(colors, id))
    ensures forall x :: Has(PaintPlayer(colors, id), x) <==> Has(colors, x) || x == id
  {
    var colored := Emplace(colors, id, Color(1.0, 0.8, 0.8));
    forall x
      ensures Has(PaintPlayer(colors, id), x) <==> Has(colors, x) || x == id
    {
      UpdateKeeps(colored, id, PlayerColor, x);
    }
  }

  /**
   createSalmon at the spawn position, then the player set-up of
   restart_game: the new entity gets a motion at the spawn position, the
   player tag and the player colour, and the soft-shell tag createSalmon gave
   it is taken away again.
   */
  function CreatePlayer(cleared: Registry, spawned: Motion): (r: Registry)
    ensures r.nextEntity == cleared.nextEntity + 1
    ensures |r.motions| == |cleared.motions| + 1 && |r.players| == |cleared.players| + 1
    ensures forall x :: Has(r.motions, x) <==> Has(cleared.motions, x) || x == cleared.nextEntity
    ensures forall x :: Has(r.players, x) <==> Has(cleared.players, x) || x == cleared.nextEntity
    ensures !Has(cleared.motions, cleared.nextEntity) ==>
      Get(r.motions, cleared.nextEntity) == spawned.(position := SpawnPosition)
    ensures !Has(cleared.softShells, cleared.nextEntity) ==> r.softShells == cleared.softShells
    ensures r.deathTimers == cleared.deathTimers
    ensures Has(r.colors, cleared.nextEntity) && Get(r.colors, cleared.nextEntity) == PlayerColor
    ensures forall x :: Has(r.colors, x) <==> Has(cleared.colors, x) || x == cleared.nextEntity
  {
    var id := cleared.nextEntity;
    var created := cleared.(
      motions := Emplace(cleared.motions, id, spawned.(position := SpawnPosition)),
      softShells := Emplace(cleared.softShells, id, Tag),
      nextEntity := id + 1);
    var r := CreatePlayerTags(created, id);
    assert !Has(cleared.softShells, id) ==> r.softShells == cleared.softShells by {
      if !Has(cleared.softShells, id) {
        EmplaceRemove(cleared.softShells, id, Tag);
      }
    }
    r
  }

  /** The tag and colour part of CreatePlayer. */
  function CreatePlayerTags(created: Registry, id: Entity): (r: Registry)
    ensures r == created.(players := r.players, softShells := Remove(created.softShells, id), colors := r.colors)
    ensures |r.players| == |created.players| + 1
    ensures forall x :: Has(r.players, x) <==> Has(created.players, x) || x == id
    ensures Has(r.colors, id) && Get(r.colors, id) == PlayerColor
    ensures forall x :: Has(r.colors, x) <==> Has(created.colors, x) || x == id
  {
    var colored := Emplace(created.colors, id, Color(1.0, 0.8, 0.8));
    assert forall x :: Has(PaintPlayer(created.colors, id), x) <==> Has(colored, x) by {
      forall x ensures Has(PaintPlayer(created.colors, id), x) <==> Has(colored, x) {
        UpdateKeeps(colored, id, PlayerColor, x);
      }
    }
    created.(
      players := Emplace(created.players, id, Tag),
      softShells := Remove(created.softShells, id),
      colors := PaintPlayer(created.colors, id))
  }

  /** Creating the player on an emptied store gives exactly one, green, player that is not a soft shell. */
  lemma CreatePlayerValid(cleared: Registry, spawned: Motion)
    requires Valid(cleared) && cleared.motions == []
    ensures var r := CreatePlayer(cleared, spawned);
      && Valid(r)
      && r.players == [Slot(cleared.nextEntity, Tag)]
      && r.softShells == []
      && r.deathTimers == []
      && Has(r.colors, cleared.nextEntity) && Get(r.colors, cleared.nextEntity) == PlayerColor
  {
    ValidWithoutMotions(cleared);
    var id := cleared.nextEntity;
    var r := CreatePlayer(cleared, spawned);
    SingletonOf(r.players, id);
    SingletonOf(r.motions, id);
    PaintPlayerKeeps(cleared.colors, id);
  }

  /** restart_game: clear every motion-bearing entity, create the player, reset the speed. */
  function Restart(w: World, spawned: Motion): (r: World)
    ensures r.speed == 1.0
    ensures r.player == w.reg.nextEntity && r.reg.nextEntity == w.reg.nextEntity + 1
    ensures r.reg.motions == [Slot(r.player, spawned.(position := SpawnPosition))]
    ensures r.points == w.points && r.darken == w.darken && r.debugging == w.debugging
  {
    var cleared := RemoveMotionBearing(w.reg);
    var reg := CreatePlayer(cleared, spawned);
    SingletonOf(reg.motions, cleared.nextEntity);
    w.(reg := reg, speed := 1.0, player := cleared.nextEntity)
  }

  /**
   After a restart there is exactly one player, the only entity with a
   motion; it is not a soft shell, nothing is dying, and it is green.
   */
  lemma RestartValid(w: World, spawned: Motion)
    requires Valid(w.reg)
    ensures var r := Restart(w, spawned);
      && Valid(r.reg)
      && r.reg.players == [Slot(r.player, Tag)]
      && r.reg.softShells == []
      && r.reg.deathTimers == []
      && Has(r.reg.colors, r.player) && Get(r.reg.colors, r.player) == PlayerColor
  {
    RemoveMotionBearingValid(w.reg);
    CreatePlayerValid(RemoveMotionBearing(w.reg), spawned);
  }

  /** A valid store without motions holds no tags and no death timers. */
  lemma ValidWithoutMotions(reg: Registry)
    requires Valid(reg) && reg.motions == []
    ensures reg.softShells == [] && reg.players == [] && reg.deathTimers == []
  {
    EmptyHasNothing(reg.softShells);
    EmptyHasNothing(reg.players);
    EmptyHasNothing(reg.deathTimers);
  }

  // ---------------------------------------------------------------------
  // The frame
  // ---------------------------------------------------------------------

  /**
   The death-timer part of WorldSystem::step. When a counter runs out, its
   timer is removed, the screen is lit again and the game restarts;
   otherwise the screen darkens with the smallest remaining time.
   */
  function TickDeathTimers(w: World, elapsedMs: real, spawned: Motion): (r: World)
  {
    match CountDown(w.reg.deathTimers, elapsedMs, 0, DarkenRangeMs)
    case Expired(ts, k) =>
      var dead := w.(reg := w.reg.(deathTimers := Remove(ts, ts[k].entity)), darken := 0.0);
      Restart(dead, spawned)
    case Running(ts, minMs) =>
      w.(reg := w.reg.(deathTimers := ts), darken := 1.0 - minMs / DarkenRangeMs)
  }

  /** Replacing the death timers by distinct timers of already-dying entities keeps the store valid. */
  lemma ReplaceTimersValid(reg: Registry, ts: Container<DeathTimer>)
    requires Valid(reg) && Distinct(ts)
    requires forall x :: Has(ts, x) ==> Has(reg.deathTimers, x)
    ensures Valid(reg.(deathTimers := ts))
  {
  }

  /** A timer that runs out restarts the game with the screen lit and nobody dying. */
  lemma TickDeathTimersExpired(w: World, elapsedMs: real, spawned: Motion)
    requires Valid(w.reg) && Expires(w.reg.deathTimers, elapsedMs)
    ensures var r := TickDeathTimers(w, elapsedMs, spawned);
      && Valid(r.reg)
      && r.darken == 0.0 && r.speed == 1.0
      && r.reg.players == [Slot(r.player, Tag)] && r.reg.deathTimers == []
      && |r.reg.motions| == 1
  {
    var c := CountDown(w.reg.deathTimers, elapsedMs, 0, DarkenRangeMs);
    CountDownStops(w.reg.deathTimers, elapsedMs, 0, DarkenRangeMs);
    SameEntitiesHas(c.timers, w.reg.deathTimers);
    var ts := c.timers;
    var left := Remove(ts, ts[c.at].entity);
    forall x
      ensures Has(left, x) ==> Has(w.reg.deathTimers, x)
    {
      RemoveHas(ts, ts[c.at].entity, x);
    }
    RemoveHas(ts, ts[c.at].entity, 0);
    ReplaceTimersValid(w.reg, left);
    var dead := w.(reg := w.reg.(deathTimers := left), darken := 0.0);
    RestartValid(dead, spawned);
  }

  /**
   While no timer runs out, every counter goes down by the frame length and
   stays non-negative, the darkening lies in [0, 1], and nothing else changes.
   The darkening is `1 - m / 3000` with `m` the smaller of 3000 and the
   smallest counter.
   */
  lemma TickDeathTimersRunning(w: World, elapsedMs: real, spawned: Motion)
    requires Valid(w.reg) && !Expires(w.reg.deathTimers, elapsedMs)
    ensures var r := TickDeathTimers(w, elapsedMs, spawned);
      && Valid(r.reg)
      && 0.0 <= r.darken <= 1.0
      && r.reg == w.reg.(deathTimers := r.reg.deathTimers)
      && r == w.(reg := r.reg, darken := r.darken)
      && |r.reg.deathTimers| == |w.reg.deathTimers|
      && (forall k | 0 <= k < |w.reg.deathTimers| ::
            && r.reg.deathTimers[k].entity == w.reg.deathTimers[k].entity
            && r.reg.deathTimers[k].data.counterMs == w.reg.deathTimers[k].data.counterMs - elapsedMs >= 0.0)
      && var m := (1.0 - r.darken) * DarkenRangeMs;
        && m <= DarkenRangeMs
        && (forall k | 0 <= k < |r.reg.deathTimers| :: m <= r.reg.deathTimers[k].data.counterMs)
        && (m == DarkenRangeMs || exists k | 0 <= k < |r.reg.deathTimers| :: m == r.reg.deathTimers[k].data.counterMs)
  {
    var c := CountDown(w.reg.deathTimers, elapsedMs, 0, DarkenRangeMs);
    CountDownStops(w.reg.deathTimers, elapsedMs, 0, DarkenRangeMs);
    SameEntitiesHas(c.timers, w.reg.deathTimers);
    ReplaceTimersValid(w.reg, c.timers);
    CountDownRunning(w.reg.deathTimers, elapsedMs, 0, DarkenRangeMs);
    CountDownMinimum(w.reg.deathTimers, elapsedMs, 0, DarkenRangeMs);
  }

  /**
   WorldSystem::step without its spawning: the off-screen sweep, then the
   death timers. `swept` is the registry between the two.
   */
  method Step(w: World, elapsedMs: real, spawned: Motion) returns (r: World, ghost swept: Registry)
    requires Valid(w.reg)
    ensures Valid(swept) && Valid(r.reg)
    ensures multiset(swept.motions) == multiset(Filter(w.reg.motions, Visible))
    ensures StrippedOf(swept, w.reg, OffScreen(w.reg.motions))
    ensures Expires(swept.deathTimers, elapsedMs) ==>
      && r.darken == 0.0 && r.speed == 1.0
      && r.reg.players == [Slot(r.player, Tag)] && r.reg.deathTimers == []
    ensures !Expires(swept.deathTimers, elapsedMs) ==>
      && 0.0 <= r.darken <= 1.0
      && r.reg.motions == swept.motions
      && forall k | 0 <= k < |r.reg.motions| :: OnScreen(r.reg.motions[k].data)
  {
    var cleaned := SweepOffScreen(w.reg);
    swept := cleaned;
    var w1 := w.(reg := cleaned);
    r := TickDeathTimers(w1, elapsedMs, spawned);
    if Expires(cleaned.deathTimers, elapsedMs) {
      TickDeathTimersExpired(w1, elapsedMs, spawned);
    } else {
      TickDeathTimersRunning(w1, elapsedMs, spawned);
    }
  }
}
